=== FILE: README.md ===
# pyrobbot chat core, modelled in Dafny

This project models the chat core of pyrobbot, a chatbot front end for Google's Gemini API:

- **The Gemini helper module** (`gemini_utils.py`). It has three model-fallback walks:
  - the start-up probe of `initialize_gemini`;
  - chat-handle creation in `get_gemini_chat`;
  - message dispatch in `get_chat_response`, which tries the chat handle first and then the stateless models.

  It also has the two usage helpers `count_tokens` and `estimate_cost`.
- **The pydantic configuration models** (`chat_config_new.py`): their ranges, defaults and validation, and `get_api_key`.
- **The `Chat` session object** (`chat_new.py`), as a state machine: construction (which initialises), `send_message` and `reset`.
- **The terminal front end** (`command_definitions_new.py`): `setup_chat`, and the read/classify/send/print loop of `terminal_chat`.

The Gemini client library is an oracle, `Sdk.Backend`. It is a record of total functions saying what each library call does: raise, or return a response. A backend fixes one answer per request, so the model covers every service that answers the same request the same way within a session. Every operation also returns the trace of library calls it made, in order. So "no call is made without a key", "later candidates are never tried" and "the system message is sent exactly once" are statements about that trace.

The three walks share one definition:

- `Fallback.FirstSuccess` is the first-success fold. It takes a per-candidate outcome: succeeded, declined quietly, or failed with an error remembered as `last_error`.
- `Fallback.RunWalk` is the `for` loop as the source writes it. It is proved equal to the fold.

Files:

| file | module | models |
|---|---|---|
| `python.dfy` | `Python` | `Optional`, the core's exceptions, truthiness, `os.getenv`, `str.strip`/`str.split` whitespace, ASCII `str.lower` |
| `sdk.dfy` | `Sdk` | the client library as an oracle, and the calls recorded in traces |
| `fallback.dfy` | `Fallback` | the first-success walk shared by the three fallbacks |
| `gemini_utils.dfy` | `GeminiUtils` | `initialize_gemini`, `get_gemini_chat`, `get_chat_response` |
| `usage.dfy` | `Usage` | `count_tokens`, `estimate_cost` |
| `chat_config.dfy` | `ChatConfigs` | `GeminiConfig`, `OpenAIConfig`, `ChatConfig`, `get_api_key` |
| `chat.dfy` | `Chat` | `Chat.__init__`, `_initialize_chat`, `send_message`, `reset` |
| `commands.dfy` | `Commands` | `setup_chat`, `terminal_chat` |

Behaviour of the code worth noting:

- When no model answers the probe, `initialize_gemini` fails with a fixed message. It does not name the last error.
- `get_chat_response` also falls back to the stateless models when the chat handle's reply has empty text, not only when sending raises.
- `send_message` does not reject an empty message.
- A failure of `send_message` carries the prefix "Failed to get chat response: " twice. `get_chat_response` wraps its own error once, and `Chat.send_message` wraps it again.

## Model

| member | source | states |
|---|---|---|
| `Fallback.FirstSuccess` | pyrobbot/gemini_utils.py:69-85 | starting with no error seen, a walk that finds a value returns the first succeeding candidate; one that ends empty-handed saw no success and reports the last failure's error, or `None` when none failed |
| `Fallback.Walking` | pyrobbot/gemini_utils.py:112-123 | a walk that finds a value returns the first succeeding candidate at or after its start; one that ends empty-handed saw no success and reports the last failure's error, or the error it started with when none failed |
| `Fallback.FirstSuccessSpec` | pyrobbot/gemini_utils.py:69-85 | the walk finds a value exactly when some candidate succeeds; it then tries candidates up to and including the winner, else all of them |
| `Fallback.LastErrorSpec` | pyrobbot/gemini_utils.py:112-123 | after exhaustion `last_error` is `None` exactly when no candidate raised, and otherwise is the error of the last candidate that raised |
| `Fallback.AllFailedLastError` | pyrobbot/gemini_utils.py:69-88 | when every candidate raises, the walk ends with the last candidate's error |
| `Fallback.RunWalk` | pyrobbot/gemini_utils.py:69-88 | the imperative loop with a running `last_error` ends exactly as the functional walk does and reports how many candidates it tried |
| `GeminiUtils.InitializeGemini` | pyrobbot/gemini_utils.py:9-50 | the environment key is used only when the argument is `None`; without a truthy key it raises before any library call; otherwise `configure` comes first; it succeeds exactly when configuring and listing succeed, the listing is non-empty and some candidate's probe response is truthy; the first answering candidate wins and later ones are untried; a failure of `configure` or `list_models` is a `ValueError` with the initialisation prefix and that error's text, and an empty listing one with the prefix and the no-models message, each after exactly the calls made so far; every later failure is a `ValueError` with the initialisation prefix; exhaustion tries all candidates and gives the fixed message |
| `GeminiUtils.GetGeminiChat` | pyrobbot/gemini_utils.py:52-88 | the requested model is tried first, then the fixed list; the returned handle is on the first candidate whose construction does not raise, with the sampling parameters unchanged, `safety_settings or []` and empty history; it raises only when all four raised, naming the last one's error |
| `GeminiUtils.GetChatResponse` | pyrobbot/gemini_utils.py:90-125 | the message is always sent on the handle first; a truthy reply with non-empty text is returned with no other call; a returned answer is never empty; a failure is a plain `Exception` carrying both prefixes |
| `GeminiUtils.StatelessFallback` | pyrobbot/gemini_utils.py:105-123 | when the handle gives no text, the answer exists exactly when some stateless model gives text; the first such model answers and later ones are not asked; otherwise all are asked and the error wraps the last raised error, or "None" |
| `Usage.Split` | pyrobbot/gemini_utils.py:131 | `str.split()` yields non-empty words containing no whitespace |
| `Usage.SplitAtSpace` | pyrobbot/gemini_utils.py:131 | any whitespace character is a word boundary: splitting around it gives the words before it followed by the words after it |
| `Usage.SplitWord` | pyrobbot/gemini_utils.py:131 | a non-empty text without whitespace is exactly one word, itself |
| `Usage.SplitKeepsText` | pyrobbot/gemini_utils.py:131 | concatenating the words gives back the text minus its whitespace: nothing is lost, added or reordered |
| `Usage.CountTokens` | pyrobbot/gemini_utils.py:127-131 | the count equals the number of maximal non-whitespace runs; it is zero exactly when the text is blank; it is at most half the length, rounded up |
| `Usage.CountTokensJoin` | pyrobbot/gemini_utils.py:127-131 | joining two texts with a space adds their counts |
| `Usage.EstimateCost` | pyrobbot/gemini_utils.py:133-140 | the cost is $0.00000025 per input token plus $0.0000005 per output token |
| `Usage.CostOfNothing` | pyrobbot/gemini_utils.py:133-140 | no tokens cost nothing |
| `Usage.CostAdditive` | pyrobbot/gemini_utils.py:133-140 | the cost of summed usage is the sum of the costs |
| `Usage.CostMonotone` | pyrobbot/gemini_utils.py:133-140 | more tokens never cost less |
| `ChatConfigs.Validate` | pyrobbot/chat_config_new.py:8-37 | construction succeeds exactly when every field is in range, and then changes nothing; otherwise it raises a validation error naming at least one field |
| `ChatConfigs.GeminiErrorsExact` | pyrobbot/chat_config_new.py:8-16 | each Gemini field is reported exactly when it breaks its own constraint |
| `ChatConfigs.GeminiErrorsNested` | pyrobbot/chat_config_new.py:29-37 | inside a chat configuration, a Gemini field is reported under `gemini_config` exactly when the Gemini configuration alone reports it |
| `ChatConfigs.GeminiFieldsNamed` | pyrobbot/chat_config_new.py:8-16 | a rejected chat configuration names each Gemini field exactly when that field is out of range |
| `ChatConfigs.OpenAIErrorsExact` | pyrobbot/chat_config_new.py:18-27 | each OpenAI field is reported exactly when it breaks its own constraint |
| `ChatConfigs.OpenAIErrorsNested` | pyrobbot/chat_config_new.py:29-37 | inside a chat configuration, an OpenAI field is reported under `openai_config` exactly when the OpenAI configuration alone reports it |
| `ChatConfigs.OpenAIFieldsNamed` | pyrobbot/chat_config_new.py:18-27 | a rejected chat configuration names each OpenAI field exactly when that field is out of range |
| `ChatConfigs.DefaultGemini` | pyrobbot/chat_config_new.py:8-16 | the default Gemini configuration is valid and has no key |
| `ChatConfigs.DefaultOpenAI` | pyrobbot/chat_config_new.py:18-27 | the default OpenAI configuration is valid and has no key |
| `ChatConfigs.DefaultChat` | pyrobbot/chat_config_new.py:29-37 | the default chat configuration passes validation unchanged, selects Gemini, has a default Gemini configuration and no OpenAI one |
| `ChatConfigs.GetApiKey` | pyrobbot/chat_config_new.py:39-44 | it raises exactly when the selected provider's sub-configuration is absent; otherwise it gives that sub-configuration's key when non-empty, else the provider's environment variable |
| `ChatConfigs.TemperatureRangesDiffer` | pyrobbot/chat_config_new.py:12-22 | a temperature of 1.5 is valid for OpenAI and invalid for Gemini |
| `ChatConfigs.ExplicitKeyWins` | pyrobbot/chat_config_new.py:43-44 | a non-empty Gemini key is returned whatever the environment holds |
| `ChatConfigs.EmptyKeyFallsBack` | pyrobbot/chat_config_new.py:43-44 | an empty Gemini key falls back to `GOOGLE_API_KEY`, like a missing one |
| `Chat.ChatKey` | pyrobbot/chat_new.py:25-27 | for the Gemini provider the second environment lookup never changes the key `get_api_key` already chose |
| `Chat.OpenSession` | pyrobbot/chat_new.py:31-42 | a handle is installed exactly when the probe with the key and the handle construction both succeed, and it is the constructed handle, its history holding just the truthy system message; it carries exactly the configured sampling parameters, a model from the candidate list and no safety settings; the calls are the probe's, then the construction's, then a truthy system message sent exactly once, as the last call; the session opens without error exactly when a handle is installed and that send does not raise; a failing probe or construction is reported with its calls and nothing installed; a failing system-message send raises the library's own error |
| `Chat.InitializeChat` | pyrobbot/chat_new.py:22-44 | another provider raises `NotImplementedError` with no call; a missing Gemini sub-configuration raises reading its key; a falsy key raises with no call; otherwise the session is opened with the key `get_api_key` chose |
| `Chat.NewChat` | pyrobbot/chat_new.py:12-20 | construction succeeds exactly when initialisation raises nothing; the session then keeps the given configuration (or the default) and system message and holds the installed handle |
| `Chat.SendMessage` | pyrobbot/chat_new.py:46-59 | the reply is exactly the dispatch's, through the session's handle, with the same calls; only the handle's history changes; every failure is a plain `Exception` whose message is the response prefix followed by the dispatch error's text, so it carries the prefix twice and, through the dispatch, the last model error |
| `Chat.Reset` | pyrobbot/chat_new.py:61-63 | configuration and system message are kept; it succeeds exactly when re-initialisation does, and otherwise raises re-initialisation's own exception; a new handle replaces the old as soon as one is made; after success the handle has seen at most the system message |
| `Chat.MissingConfigIsDefault` | pyrobbot/chat_new.py:18 | constructing without a configuration is constructing with the default one |
| `Chat.ResetIsReconstruction` | pyrobbot/chat_new.py:61-63 | a successful reset leaves exactly the session and calls a fresh construction would produce |
| `Chat.OnlyGemini` | pyrobbot/chat_new.py:43-44 | a non-Gemini provider cannot be constructed, and the attempt calls nothing |
| `Commands.SetupConfig` | pyrobbot/command_definitions_new.py:8-18 | the configuration selects Gemini on "gemini-pro" with no key; each parameter is the argument or its default (0.7, 0.8, 40, 2048); it is rejected exactly when a supplied value is out of range |
| `Commands.SetupWithoutArgsIsDefault` | pyrobbot/command_definitions_new.py:8-18 | with no arguments the configuration is the default chat configuration |
| `Commands.SetupChat` | pyrobbot/command_definitions_new.py:8-19 | a configuration error propagates before any library call; otherwise the session is constructed with no system message |
| `Commands.LowerMatches` | pyrobbot/command_definitions_new.py:34 | a line lower-cases to an exit word exactly when it spells that word in any letter case |
| `Commands.Classify` | pyrobbot/command_definitions_new.py:32-35 | a line is skipped exactly when it is all whitespace |
| `Commands.ClassifySpec` | pyrobbot/command_definitions_new.py:32-35 | a line is skipped exactly when it is all whitespace; it ends the session exactly when it is "exit", "quit" or "q" in any case, with nothing around it |
| `Commands.PaddedExitWordIsSent` | pyrobbot/command_definitions_new.py:34 | " quit" is sent as a message rather than ending the session |
| `Commands.MixedCaseExitWordQuits` | pyrobbot/command_definitions_new.py:34 | "QuIt" ends the session |
| `Commands.WhitespaceLineIsSkipped` | pyrobbot/command_definitions_new.py:32-33 | a line of spaces, tabs and newlines is skipped |
| `Commands.Deliver` | pyrobbot/command_definitions_new.py:37-45 | a sent line gets exactly one printed entry: the reply, or the error text; the session moves to the state `send_message` leaves, and its library calls are appended to the trace; the configuration is kept |
| `Commands.Consume` | pyrobbot/command_definitions_new.py:32-39 | a non-stopping line is sent exactly when it is not blank, through `Deliver`; any other line changes nothing, neither the session nor the output nor the trace |
| `Commands.StepAccountable` | pyrobbot/command_definitions_new.py:32-45 | the session's per-line step sends only dispatchable lines, prints once per send and keeps the configuration |
| `Commands.Loop` | pyrobbot/command_definitions_new.py:29-45 | the corrected loop handles each line read before the first Ctrl-C, end of file or exit word once, in order, and reads nothing after it |
| `Commands.SendableTexts` | pyrobbot/command_definitions_new.py:32-39 | the lines sent are the texts read that are neither blank nor an exit word, in order |
| `Commands.ApplySends` | pyrobbot/command_definitions_new.py:32-39 | handling lines one by one sends the dispatchable ones, in order |
| `Commands.LoopAccounts` | pyrobbot/command_definitions_new.py:29-45 | the loop sends the non-blank, non-exit lines before the first Ctrl-C, end of file or exit word, each once and in order |
| `Commands.LoopKeeps` | pyrobbot/command_definitions_new.py:29-45 | the loop prints one entry for each line it sends, loses nothing printed and keeps the configuration |
| `Commands.LoopDelivers` | pyrobbot/command_definitions_new.py:29-45 | the loop amounts to delivering the sendable lines before the first stop, one after another |
| `Commands.RepliesKeep` | pyrobbot/command_definitions_new.py:37-45 | delivering lines one by one sends them all in order and prints one entry for each, keeping what was printed |
| `Commands.RepliesPair` | pyrobbot/command_definitions_new.py:37-45 | the k-th printed entry is the one printed when the k-th line was delivered, in the state the earlier lines left |
| `Commands.ConversePairs` | pyrobbot/command_definitions_new.py:29-45 | the k-th line the session sends is the k-th sendable line, and the k-th entry printed is that line's own reply, or the error sending it raised, in the session as the earlier lines left it |
| `Commands.Converse` | pyrobbot/command_definitions_new.py:29-45 | the corrected loop sends exactly the sendable lines before the first stop and prints one entry per line sent; its final session, handle history, output and trace are those of delivering those lines one after another |
| `Commands.TerminalChat` | pyrobbot/command_definitions_new.py:26-45 | a setup failure propagates as setup's own exception; otherwise the session sends exactly the sendable lines before the first stop, prints once for each, and keeps the configuration built by setup; the final state is that of delivering those lines in turn to the session setup built, after setup's calls |
| `Commands.LoopAsWritten` | pyrobbot/command_definitions_new.py:29-45 | the loop as written ends only at a Ctrl-C or an exit word, never at an end of file; each end of file prints the text of its own `EOFError` |
| `Commands.EndOfFileReadsOn` | pyrobbot/command_definitions_new.py:31-45 | as written, a single end of file prints its own error text and reading goes on, where the corrected loop stops |
| `Commands.EndOfInputNeverEnds` | pyrobbot/command_definitions_new.py:29-45 | as written, once input is exhausted every iteration prints the end-of-file error and the loop never ends |
| `Commands.AgreesBeforeEndOfInput` | pyrobbot/command_definitions_new.py:29-45 | when a Ctrl-C or an exit word comes before any end of file, the loop as written and the corrected loop end in the same state |

## Left out

- Varying answers: `Sdk.Backend` answers the same request the same way throughout a session. A real service can answer identical requests differently, through sampling at a non-zero temperature, transient errors or quota limits. So a message repeated later in the loop gets the same stateless fallback outcome, and a reset meets the same probe and chat-creation outcomes as the construction did.
- Printing: the model list printed by `initialize_gemini` and the prompts and labels printed by `terminal_chat` are left out. The loop records only the replies and error texts it prints.
- Streaming: the `stream` flag of `get_chat_response` and `send_message` has no effect in the code and is not modelled.
- Concurrency: a Ctrl-C that arrives while a message is being sent (rather than while reading a line) is not modelled. Only Ctrl-C and end of file at the prompt are input events.
- The `list_models()` emptiness check: in the real library `list_models()` returns a generator, which is always truthy, so the "No models available" branch cannot fire there. The model treats the listing as a finite list, so that branch is reachable in the model.
- A response whose `.text` accessor raises is modelled as a raising request. This matches every walk except the start-up probe, which only tests the response's truth value. So in the model a probe whose reply would raise on `.text` does not count as an answer.
- `Python.Str`: the text pydantic renders for a validation error is not modelled. The error carries only the locations of the fields that failed.
- `ChatConfigs.Validate`: pydantic's type coercion (an `int` accepted as a `float`, a numeric string such as "0.5" accepted as a number, a non-numeric string rejected) is not modelled. Fields carry their declared types.
- The browser and voice front ends (`browser_chat`, `voice_chat`) and argument parsing are outside this core. `Commands.Args` stands for the namespace `setup_chat` reads.
- Floating point: `Usage.EstimateCost` is computed over the reals, so the rounding of the source's float arithmetic is not modelled.
- `Python.Lower` lower-cases ASCII letters only. No other character lower-cases to the letters of "exit", "quit" or "q", so the exit-word test is unaffected.

## Findings

| source | as written | input that shows it | evidently intended | confidence | as-written member | corrected member |
|---|---|---|---|---|---|---|
| pyrobbot/command_definitions_new.py:29-45 | `input()` raises `EOFError` at end of standard input; the `except Exception` clause catches it, prints "Error: EOF when reading a line" and reads again | standard input redirected from a file or pipe that has reached its end (for example, piped from an empty file) | the loop ends at end of input, as it does on Ctrl-C | not executed | `Commands.EndOfInputNeverEnds` | `Commands.TerminalChat` |

`Commands.LoopAsWritten` is the loop as written, with an iteration bound. `Commands.EndOfInputNeverEnds` proves that on exhausted input it is still running after any number of iterations, having printed only the end-of-file error. `Commands.Loop` is the corrected loop. `Commands.AgreesBeforeEndOfInput` proves the two agree whenever a Ctrl-C or an exit word comes before any end of file. `Commands.TerminalChat` uses the corrected loop.

At an interactive terminal, Ctrl-D makes one `input()` call raise `EOFError`, and the next call waits for input again. The input event `EndOfFile` stands for that single end of file. The event carries the text `str(e)` gives: empty when standard input and output are both terminals, so the line printed is just "Error: ", and "EOF when reading a line" otherwise. `Commands.EndOfFileReadsOn` proves that the loop as written prints that text once and reads on, so it does not spin there. The corrected loop ends at that event, as it ends at exhausted input.

=== FILE: chat.dfy ===
/**
 The chat session object: construction (which initialises), message sending,
 and reset. A session holds its configuration, its optional system message and
 the chat handle it currently talks through; every transition is a function of
 the backend, the environment and the session, returning the calls it made.
 */
module Chat {
  import opened Python
  import opened Sdk
  import opened ChatConfigs
  import GeminiUtils

  const NotGeminiMessage := "Only Gemini provider is currently supported"

  /** A constructed `Chat`: `config`, `system_message` and the handle `chat`. */
  datatype ChatState = ChatState(config: ChatConfig, systemMessage: Option<string>, handle: Handle)

  /** What one run of `_initialize_chat` did: the handle it assigned to
      `self.chat` if it got that far, the exception it ended with if any, and
      the library calls it made. */
  datatype InitRun = InitRun(installed: Option<Handle>, error: Option<Exc>, trace: seq<Call>)

  /** The key `_initialize_chat` settles on: `config.get_api_key()`, then the
      environment's `GOOGLE_API_KEY` when that is falsy. For the Gemini
      provider the second lookup can never change the key. */
  function ChatKey(config: ChatConfig, env: Env): (r: Result<Option<string>>)
    requires config.provider == "gemini"
    ensures r == GetApiKey(config, env)
  {
    match GetApiKey(config, env)
    case Raise(e) => Raise(e)
    case Ok(configured) => Ok(if Truthy(configured) then configured else Getenv(env, GoogleKeyVar))
  }

  /** The part of `_initialize_chat` after the key is known: probe, create the
      handle, and send the system message on it. */
  function OpenSession(b: Backend, env: Env, g: GeminiConfig, key: string, systemMessage: Option<string>): (r: InitRun)
    requires key != ""
    // a handle is assigned only after the probe succeeded with that key
    ensures r.installed.Some? ==>
              var init := GeminiUtils.InitializeGemini(b, Some(key), env);
              init.result.Ok? && init.trace <= r.trace
    // the handle carries exactly the configured sampling parameters
    ensures r.installed.Some? ==>
              && r.installed.value.generation == GenerationConfig(g.temperature, g.topP, g.topK, g.maxOutputTokens)
              && r.installed.value.model in GeminiUtils.ChatCandidates(g.model)
              && r.installed.value.safety == []
    // a truthy system message is sent exactly once, as the last call, and its reply dropped
    ensures r.installed.Some? ==>
              r.installed.value.sent == (if Truthy(systemMessage) then [systemMessage.value] else [])
    ensures r.installed.Some? && Truthy(systemMessage) ==>
              && r.trace[|r.trace| - 1] == Send(r.installed.value.(sent := []), systemMessage.value)
              && forall i | 0 <= i < |r.trace| - 1 :: !r.trace[i].Send?
    ensures r.installed.None? || !Truthy(systemMessage) ==>
              forall i | 0 <= i < |r.trace| :: !r.trace[i].Send?
    // success leaves a handle in place
    ensures r.error.None? ==> r.installed.Some?
    // a handle is installed exactly when the probe and the chat creation both succeed,
    // and it is the created handle, having been sent the system message if there is one
    ensures var init := GeminiUtils.InitializeGemini(b, Some(key), env);
      var chat := GeminiUtils.GetGeminiChat(b, g.model, g.temperature, g.topP, g.topK, g.maxOutputTokens, None);
      && (r.installed.Some? <==> init.result.Ok? && chat.result.Ok?)
      && (r.installed.Some? ==>
            r.installed.value == chat.result.value.(sent := if Truthy(systemMessage) then [systemMessage.value] else []))
    // the session opens without error exactly when, on top of that, sending the system message does not raise
    ensures var chat := GeminiUtils.GetGeminiChat(b, g.model, g.temperature, g.topP, g.topK, g.maxOutputTokens, None);
      r.error.None? <==>
        && r.installed.Some?
        && (!Truthy(systemMessage) || !b.send(chat.result.value, systemMessage.value).Raised?)
    // a failing system-message send propagates the library's exception unchanged
    ensures var chat := GeminiUtils.GetGeminiChat(b, g.model, g.temperature, g.topP, g.topK, g.maxOutputTokens, None);
      r.installed.Some? && Truthy(systemMessage) && b.send(chat.result.value, systemMessage.value).Raised? ==>
        r.error == Some(SdkError(b.send(chat.result.value, systemMessage.value).error))
    // the calls are the probe's, then the chat creation's, then the system message
    ensures var init := GeminiUtils.InitializeGemini(b, Some(key), env);
      var chat := GeminiUtils.GetGeminiChat(b, g.model, g.temperature, g.topP, g.topK, g.maxOutputTokens, None);
      && (init.result.Raise? ==> r == InitRun(None, Some(init.result.error), init.trace))
      && (init.result.Ok? && chat.result.Raise? ==>
            r == InitRun(None, Some(chat.result.error), init.trace + chat.trace))
      && (r.installed.Some? ==>
            r.trace == init.trace + chat.trace
                       + (if Truthy(systemMessage) then [Send(chat.result.value, systemMessage.value)] else []))
  {
    var init := GeminiUtils.InitializeGemini(b, Some(key), env);
    if init.result.Raise? then
      InitRun(None, Some(init.result.error), init.trace)
    else
      var chat := GeminiUtils.GetGeminiChat(b, g.model, g.temperature, g.topP, g.topK, g.maxOutputTokens, None);
      var trace := init.trace + chat.trace;
      if chat.result.Raise? then
        InitRun(None, Some(chat.result.error), trace)
      else
        var h := chat.result.value;
        if Truthy(systemMessage) then
          var reply := b.send(h, systemMessage.value);
          InitRun(Some(h.(sent := [systemMessage.value])),
                  if reply.Raised? then Some(SdkError(reply.error)) else None,
                  trace + [Send(h, systemMessage.value)])
        else
          InitRun(Some(h), None, trace)
  }

  /** `_initialize_chat`. */
  function InitializeChat(b: Backend, env: Env, config: ChatConfig, systemMessage: Option<string>): (r: InitRun)
    // only the Gemini provider is served, and nothing is called for another
    ensures config.provider != "gemini" ==>
              r == InitRun(None, Some(NotImplementedError(NotGeminiMessage)), [])
    // a Gemini configuration without a Gemini sub-configuration fails reading its key
    ensures config.provider == "gemini" && config.gemini.None? ==>
              r == InitRun(None, Some(AttributeError(AttributeOnNone)), [])
    // without a key, nothing is called
    ensures config.provider == "gemini" && config.gemini.Some? && !Truthy(GetApiKey(config, env).value) ==>
              r == InitRun(None, Some(ValueError(GeminiUtils.NoKeyMessage)), [])
    // otherwise the session is opened with the configuration's key
    ensures config.provider == "gemini" && config.gemini.Some? && Truthy(GetApiKey(config, env).value) ==>
              r == OpenSession(b, env, config.gemini.value, GetApiKey(config, env).value.value, systemMessage)
  {
    if config.provider != "gemini" then
      InitRun(None, Some(NotImplementedError(NotGeminiMessage)), [])
    else
      match ChatKey(config, env)
      case Raise(e) => InitRun(None, Some(e), [])
      case Ok(key) =>
        if !Truthy(key) then
          InitRun(None, Some(ValueError(GeminiUtils.NoKeyMessage)), [])
        else
          OpenSession(b, env, config.gemini.value, key.value, systemMessage)
  }

  /** A constructor call: the session, or the exception, and the calls made. */
  datatype Construction = Construction(result: Result<ChatState>, trace: seq<Call>)

  /** `Chat(config, system_message)`: a missing configuration is replaced by
      the default one, and initialisation runs during construction. */
  function NewChat(b: Backend, env: Env, config: Option<ChatConfig>, systemMessage: Option<string>): (c: Construction)
    ensures var cfg := config.GetOr(DefaultChat()); var run := InitializeChat(b, env, cfg, systemMessage);
      && c.trace == run.trace
      && (c.result.Ok? <==> run.error.None?)
      && (c.result.Ok? ==> c.result.value == ChatState(cfg, systemMessage, run.installed.value))
      && (c.result.Raise? ==> Some(c.result.error) == run.error)
  {
    var cfg := config.GetOr(DefaultChat());
    var run := InitializeChat(b, env, cfg, systemMessage);
    if run.error.None? then Construction(Ok(ChatState(cfg, systemMessage, run.installed.value)), run.trace)
    else Construction(Raise(run.error.value), run.trace)
  }

  /** A transition of a constructed session. */
  datatype Step<+T> = Step(result: Result<T>, state: ChatState, trace: seq<Call>)

  /** `Chat.send_message`; the `stream` flag has no effect and is not modelled. */
  function SendMessage(b: Backend, s: ChatState, message: string): (st: Step<string>)
    // it answers exactly what the dispatch answers, through the current handle
    ensures var d := GeminiUtils.GetChatResponse(b, s.handle, message);
      && (st.result.Ok? <==> d.result.Ok?)
      && (st.result.Ok? ==> st.result.value == d.result.value)
      && st.trace == d.trace
    // only the handle changes: it has been sent the message
    ensures st.state == s.(handle := s.handle.(sent := s.handle.sent + [message]))
    // every failure wraps the dispatch error's text in the response prefix once more
    ensures st.result.Raise? ==>
              st.result.error
              == Exception(GeminiUtils.ResponsePrefix + Str(GeminiUtils.GetChatResponse(b, s.handle, message).result.error))
    ensures st.result.Raise? ==>
              && st.result.error.Exception?
              && GeminiUtils.ResponsePrefix + GeminiUtils.ResponsePrefix + GeminiUtils.AnyModelPrefix
                 <= st.result.error.message
  {
    var d := GeminiUtils.GetChatResponse(b, s.handle, message);
    var next := s.(handle := d.handle);
    match d.result
    case Ok(text) => Step(Ok(text), next, d.trace)
    case Raise(e) => Step(Raise(Exception(GeminiUtils.ResponsePrefix + Str(e))), next, d.trace)
  }

  /** `Chat.reset`: initialisation again, with the same configuration and
      system message. The handle is replaced as soon as a new one is made. */
  function Reset(b: Backend, env: Env, s: ChatState): (st: Step<()>)
    ensures st.state.config == s.config && st.state.systemMessage == s.systemMessage
    ensures var run := InitializeChat(b, env, s.config, s.systemMessage);
      && st.trace == run.trace
      && (st.result.Ok? <==> run.error.None?)
      && (st.result.Raise? ==> Some(st.result.error) == run.error)
      && (st.state.handle == if run.installed.Some? then run.installed.value else s.handle)
    // a successful reset drops the conversation: the new handle has seen at
    // most the system message
    ensures st.result.Ok? ==>
              st.state.handle.sent == (if Truthy(s.systemMessage) then [s.systemMessage.value] else [])
  {
    var run := InitializeChat(b, env, s.config, s.systemMessage);
    var next := if run.installed.Some? then s.(handle := run.installed.value) else s;
    Step(if run.error.None? then Ok(()) else Raise(run.error.value), next, run.trace)
  }

  /** Constructing without a configuration is constructing with the default one. */
  lemma MissingConfigIsDefault(b: Backend, env: Env, systemMessage: Option<string>)
    ensures NewChat(b, env, None, systemMessage) == NewChat(b, env, Some(DefaultChat()), systemMessage)
  {
  }

  /** A reset that succeeds leaves the session a fresh construction from the
      same configuration and system message would have produced. */
  lemma ResetIsReconstruction(b: Backend, env: Env, s: ChatState)
    requires Reset(b, env, s).result.Ok?
    ensures NewChat(b, env, Some(s.config), s.systemMessage) == Construction(Ok(Reset(b, env, s).state), Reset(b, env, s).trace)
  {
  }

  /** A session whose provider is not Gemini cannot be constructed, and the
      attempt calls nothing. */
  lemma OnlyGemini(b: Backend, env: Env, config: ChatConfig, systemMessage: Option<string>)
    requires config.provider != "gemini"
    ensures NewChat(b, env, Some(config), systemMessage) == Construction(Raise(NotImplementedError(NotGeminiMessage)), [])
  {
  }
}

=== FILE: chat_config.dfy ===
/**
 The pydantic configuration models: per-provider settings with their ranges
 and defaults, the top-level chat configuration, construction-time
 validation, and API-key resolution.
 */
module ChatConfigs {
  import opened Python

  const OpenAIKeyVar := "OPENAI_API_KEY"
  const GoogleKeyVar := "GOOGLE_API_KEY"

  datatype GeminiConfig = GeminiConfig(
    model: string,
    temperature: real,
    topP: real,
    topK: int,
    maxOutputTokens: int,
    apiKey: Option<string>)

  datatype OpenAIConfig = OpenAIConfig(
    model: string,
    temperature: real,
    topP: real,
    presencePenalty: real,
    frequencyPenalty: real,
    maxTokens: Option<int>,
    apiKey: Option<string>)

  /** `provider` picks which of the two optional sub-configurations is used. */
  datatype ChatConfig = ChatConfig(
    provider: string,
    openai: Option<OpenAIConfig>,
    gemini: Option<GeminiConfig>)

  /** The constraints pydantic enforces on a `GeminiConfig`. */
  predicate ValidGemini(c: GeminiConfig) {
    && c.model == "gemini-pro"
    && 0.0 <= c.temperature <= 1.0
    && 0.0 <= c.topP <= 1.0
    && c.topK >= 1
    && c.maxOutputTokens >= 1
  }

  /** The constraints pydantic enforces on an `OpenAIConfig`. */
  predicate ValidOpenAI(c: OpenAIConfig) {
    && c.model in {"gpt-3.5-turbo", "gpt-4"}
    && 0.0 <= c.temperature <= 2.0
    && 0.0 <= c.topP <= 1.0
    && -2.0 <= c.presencePenalty <= 2.0
    && -2.0 <= c.frequencyPenalty <= 2.0
    && (c.maxTokens.None? || c.maxTokens.value >= 1)
  }

  /** The constraints pydantic enforces on a `ChatConfig`, nested ones included. */
  predicate ValidChat(c: ChatConfig) {
    && c.provider in {"openai", "gemini"}
    && (c.openai.Some? ==> ValidOpenAI(c.openai.value))
    && (c.gemini.Some? ==> ValidGemini(c.gemini.value))
  }

  /** A field location when `bad` holds, nothing otherwise. */
  function Check(bad: bool, field: string): seq<seq<string>> {
    if bad then [[field]] else []
  }

  /** The locations of the fields of a `GeminiConfig` that break their constraint, in declaration order. */
  function GeminiErrors(c: GeminiConfig): seq<seq<string>> {
    Check(c.model != "gemini-pro", "model")
    + Check(!(0.0 <= c.temperature <= 1.0), "temperature")
    + Check(!(0.0 <= c.topP <= 1.0), "top_p")
    + Check(c.topK < 1, "top_k")
    + Check(c.maxOutputTokens < 1, "max_output_tokens")
  }

  function OpenAIErrors(c: OpenAIConfig): seq<seq<string>> {
    Check(c.model !in {"gpt-3.5-turbo", "gpt-4"}, "model")
    + Check(!(0.0 <= c.temperature <= 2.0), "temperature")
    + Check(!(0.0 <= c.topP <= 1.0), "top_p")
    + Check(!(-2.0 <= c.presencePenalty <= 2.0), "presence_penalty")
    + Check(!(-2.0 <= c.frequencyPenalty <= 2.0), "frequency_penalty")
    + Check(c.maxTokens.Some? && c.maxTokens.value < 1, "max_tokens")
  }

  /** Every location of `locs` under the parent field `parent`. */
  function Nested(parent: string, locs: seq<seq<string>>): (r: seq<seq<string>>)
    ensures |r| == |locs|
    ensures forall i | 0 <= i < |locs| :: r[i] == [parent] + locs[i]
  {
    seq(|locs|, i requires 0 <= i < |locs| => [parent] + locs[i])
  }

  function ChatErrors(c: ChatConfig): seq<seq<string>> {
    Check(c.provider !in {"openai", "gemini"}, "provider")
    + (if c.openai.Some? then Nested("openai_config", OpenAIErrors(c.openai.value)) else [])
    + (if c.gemini.Some? then Nested("gemini_config", GeminiErrors(c.gemini.value)) else [])
  }

  /** Constructing a `ChatConfig`: it either yields the configuration
      unchanged or raises a `ValidationError` naming the offending fields. */
  function Validate(c: ChatConfig): (r: Result<ChatConfig>)
    ensures r.Ok? <==> ValidChat(c)
    ensures r.Ok? ==> r.value == c
    ensures r.Raise? ==> r.error.ValidationError? && |r.error.locations| > 0
  {
    var errors := ChatErrors(c);
    if |errors| == 0 then Ok(c) else Raise(ValidationError(errors))
  }

  lemma NestedMember(parent: string, locs: seq<seq<string>>, loc: seq<string>)
    ensures [parent] + loc in Nested(parent, locs) <==> loc in locs
  {
    if loc in locs {
      var i :| 0 <= i < |locs| && locs[i] == loc;
      assert Nested(parent, locs)[i] == [parent] + loc;
    }
    if [parent] + loc in Nested(parent, locs) {
      var i :| 0 <= i < |locs| && Nested(parent, locs)[i] == [parent] + loc;
      assert locs[i] == ([parent] + loc)[1..] == loc;
    }
  }

  /** A location is among a check's exactly when the check failed on that field. */
  lemma CheckMember(bad: bool, field: string, loc: seq<string>)
    ensures loc in Check(bad, field) <==> bad && loc == [field]
  {
  }

  /** The one-field locations `GeminiErrors` holds, field by field. */
  lemma InGeminiErrors(g: GeminiConfig, f: string)
    ensures [f] in GeminiErrors(g) <==>
              || (f == "model" && g.model != "gemini-pro")
              || (f == "temperature" && !(0.0 <= g.temperature <= 1.0))
              || (f == "top_p" && !(0.0 <= g.topP <= 1.0))
              || (f == "top_k" && g.topK < 1)
              || (f == "max_output_tokens" && g.maxOutputTokens < 1)
  {
    CheckMember(g.model != "gemini-pro", "model", [f]);
    CheckMember(!(0.0 <= g.temperature <= 1.0), "temperature", [f]);
    CheckMember(!(0.0 <= g.topP <= 1.0), "top_p", [f]);
    CheckMember(g.topK < 1, "top_k", [f]);
    CheckMember(g.maxOutputTokens < 1, "max_output_tokens", [f]);
  }

  /** The fields `GeminiErrors` names are exactly the ones out of range. */
  lemma GeminiErrorsExact(g: GeminiConfig)
    ensures ["model"] in GeminiErrors(g) <==> g.model != "gemini-pro"
    ensures ["temperature"] in GeminiErrors(g) <==> !(0.0 <= g.temperature <= 1.0)
    ensures ["top_p"] in GeminiErrors(g) <==> !(0.0 <= g.topP <= 1.0)
    ensures ["top_k"] in GeminiErrors(g) <==> g.topK < 1
    ensures ["max_output_tokens"] in GeminiErrors(g) <==> g.maxOutputTokens < 1
  {
    assert "top_p"[4] != "top_k"[4];
    InGeminiErrors(g, "model");
    InGeminiErrors(g, "temperature");
    InGeminiErrors(g, "top_p");
    InGeminiErrors(g, "top_k");
    InGeminiErrors(g, "max_output_tokens");
  }

  /** Inside a `ChatConfig`, a Gemini field is named under "gemini_config"
      exactly when the Gemini configuration alone names it. */
  lemma GeminiErrorsNested(c: ChatConfig, f: string)
    requires c.gemini.Some?
    ensures ["gemini_config", f] in ChatErrors(c) <==> [f] in GeminiErrors(c.gemini.value)
  {
    var g := c.gemini.value;
    var loc := ["gemini_config", f];
    NestedMember("gemini_config", GeminiErrors(g), [f]);
    assert loc == ["gemini_config"] + [f];
    assert loc !in Check(c.provider !in {"openai", "gemini"}, "provider") by {
      assert loc[0] != "provider";
    }
  }

  /** A rejected configuration names each Gemini field exactly when that
      field breaks its constraint. */
  lemma GeminiFieldsNamed(c: ChatConfig)
    requires c.gemini.Some?
    ensures var g := c.gemini.value; var r := Validate(c);
      && (r.Raise? ==> (["gemini_config", "model"] in r.error.locations <==> g.model != "gemini-pro"))
      && (r.Raise? ==> (["gemini_config", "temperature"] in r.error.locations <==> !(0.0 <= g.temperature <= 1.0)))
      && (r.Raise? ==> (["gemini_config", "top_p"] in r.error.locations <==> !(0.0 <= g.topP <= 1.0)))
      && (r.Raise? ==> (["gemini_config", "top_k"] in r.error.locations <==> g.topK < 1))
      && (r.Raise? ==> (["gemini_config", "max_output_tokens"] in r.error.locations <==> g.maxOutputTokens < 1))
  {
    GeminiErrorsExact(c.gemini.value);
    GeminiErrorsNested(c, "model");
    GeminiErrorsNested(c, "temperature");
    GeminiErrorsNested(c, "top_p");
    GeminiErrorsNested(c, "top_k");
    GeminiErrorsNested(c, "max_output_tokens");
  }

  /** The one-field locations `OpenAIErrors` holds, field by field. */
  lemma InOpenAIErrors(o: OpenAIConfig, f: string)
    ensures [f] in OpenAIErrors(o) <==>
              || (f == "model" && o.model !in {"gpt-3.5-turbo", "gpt-4"})
              || (f == "temperature" && !(0.0 <= o.temperature <= 2.0))
              || (f == "top_p" && !(0.0 <= o.topP <= 1.0))
              || (f == "presence_penalty" && !(-2.0 <= o.presencePenalty <= 2.0))
              || (f == "frequency_penalty" && !(-2.0 <= o.frequencyPenalty <= 2.0))
              || (f == "max_tokens" && o.maxTokens.Some? && o.maxTokens.value < 1)
  {
    CheckMember(o.model !in {"gpt-3.5-turbo", "gpt-4"}, "model", [f]);
    CheckMember(!(0.0 <= o.temperature <= 2.0), "temperature", [f]);
    CheckMember(!(0.0 <= o.topP <= 1.0), "top_p", [f]);
    CheckMember(!(-2.0 <= o.presencePenalty <= 2.0), "presence_penalty", [f]);
    CheckMember(!(-2.0 <= o.frequencyPenalty <= 2.0), "frequency_penalty", [f]);
    CheckMember(o.maxTokens.Some? && o.maxTokens.value < 1, "max_tokens", [f]);
  }

  /** The fields `OpenAIErrors` names are exactly the ones out of range. */
  lemma OpenAIErrorsExact(o: OpenAIConfig)
    ensures ["model"] in OpenAIErrors(o) <==> o.model !in {"gpt-3.5-turbo", "gpt-4"}
    ensures ["temperature"] in OpenAIErrors(o) <==> !(0.0 <= o.temperature <= 2.0)
    ensures ["top_p"] in OpenAIErrors(o) <==> !(0.0 <= o.topP <= 1.0)
    ensures ["presence_penalty"] in OpenAIErrors(o) <==> !(-2.0 <= o.presencePenalty <= 2.0)
    ensures ["frequency_penalty"] in OpenAIErrors(o) <==> !(-2.0 <= o.frequencyPenalty <= 2.0)
    ensures ["max_tokens"] in OpenAIErrors(o) <==> o.maxTokens.Some? && o.maxTokens.value < 1
  {
    assert "model"[0] != "top_p"[0];
    InOpenAIErrors(o, "model");
    InOpenAIErrors(o, "temperature");
    InOpenAIErrors(o, "top_p");
    InOpenAIErrors(o, "presence_penalty");
    InOpenAIErrors(o, "frequency_penalty");
    InOpenAIErrors(o, "max_tokens");
  }

  /** Inside a `ChatConfig`, an OpenAI field is named under "openai_config"
      exactly when the OpenAI configuration alone names it. */
  lemma OpenAIErrorsNested(c: ChatConfig, f: string)
    requires c.openai.Some?
    ensures ["openai_config", f] in ChatErrors(c) <==> [f] in OpenAIErrors(c.openai.value)
  {
    var loc := ["openai_config", f];
    NestedMember("openai_config", OpenAIErrors(c.openai.value), [f]);
    assert loc == ["openai_config"] + [f];
    if c.gemini.Some? {
      var gs := Nested("gemini_config", GeminiErrors(c.gemini.value));
      forall i | 0 <= i < |gs| ensures gs[i] != loc {
        assert gs[i][0] == "gemini_config" != loc[0];
      }
    }
    assert loc !in Check(c.provider !in {"openai", "gemini"}, "provider") by {
      assert loc[0] != "provider";
    }
  }

  /** A rejected configuration names each OpenAI field exactly when that
      field breaks its constraint. */
  lemma OpenAIFieldsNamed(c: ChatConfig)
    requires c.openai.Some?
    ensures var o := c.openai.value; var r := Validate(c);
      && (r.Raise? ==> (["openai_config", "model"] in r.error.locations <==> o.model !in {"gpt-3.5-turbo", "gpt-4"}))
      && (r.Raise? ==> (["openai_config", "temperature"] in r.error.locations <==> !(0.0 <= o.temperature <= 2.0)))
      && (r.Raise? ==> (["openai_config", "top_p"] in r.error.locations <==> !(0.0 <= o.topP <= 1.0)))
      && (r.Raise? ==> (["openai_config", "presence_penalty"] in r.error.locations <==> !(-2.0 <= o.presencePenalty <= 2.0)))
      && (r.Raise? ==> (["openai_config", "frequency_penalty"] in r.error.locations <==> !(-2.0 <= o.frequencyPenalty <= 2.0)))
      && (r.Raise? ==> (["openai_config", "max_tokens"] in r.error.locations <==> o.maxTokens.Some? && o.maxTokens.value < 1))
  {
    OpenAIErrorsExact(c.openai.value);
    OpenAIErrorsNested(c, "model");
    OpenAIErrorsNested(c, "temperature");
    OpenAIErrorsNested(c, "top_p");
    OpenAIErrorsNested(c, "presence_penalty");
    OpenAIErrorsNested(c, "frequency_penalty");
    OpenAIErrorsNested(c, "max_tokens");
  }

  /** `GeminiConfig()`: 0.7 / 0.8 / 40 / 2048 on "gemini-pro", no key. */
  function DefaultGemini(): (c: GeminiConfig)
    ensures ValidGemini(c)
    ensures c.apiKey == None
  {
    GeminiConfig("gemini-pro", 0.7, 0.8, 40, 2048, None)
  }

  /** `OpenAIConfig()`: 0.7 / 1.0 / 0 / 0 on "gpt-3.5-turbo", no token cap, no key. */
  function DefaultOpenAI(): (c: OpenAIConfig)
    ensures ValidOpenAI(c)
    ensures c.apiKey == None
  {
    OpenAIConfig("gpt-3.5-turbo", 0.7, 1.0, 0.0, 0.0, None, None)
  }

  /** `ChatConfig()`: the Gemini provider with a default Gemini configuration, and no OpenAI one. */
  function DefaultChat(): (c: ChatConfig)
    ensures ValidChat(c) && Validate(c) == Ok(c)
    ensures c.provider == "gemini" && c.openai == None && c.gemini == Some(DefaultGemini())
  {
    ChatConfig("gemini", None, Some(DefaultGemini()))
  }

  /** The environment variable holding the key of a provider. */
  function KeyVar(provider: string): string {
    if provider == "openai" then OpenAIKeyVar else GoogleKeyVar
  }

  /** `ChatConfig.get_api_key`: the selected provider's own key when it is
      non-empty, otherwise that provider's environment variable (possibly
      unset). Reading the key of an absent sub-configuration raises. */
  function GetApiKey(c: ChatConfig, env: Env): (r: Result<Option<string>>)
    ensures r.Raise? <==> (if c.provider == "openai" then c.openai.None? else c.gemini.None?)
    ensures r.Raise? ==> r.error == AttributeError(AttributeOnNone)
    ensures r.Ok? ==>
              var own := if c.provider == "openai" then c.openai.value.apiKey else c.gemini.value.apiKey;
              r.value == (if Truthy(own) then own else Getenv(env, KeyVar(c.provider)))
  {
    if c.provider == "openai" then
      match c.openai
      case None => Raise(AttributeError(AttributeOnNone))
      case Some(o) => Ok(Or(o.apiKey, Getenv(env, OpenAIKeyVar)))
    else
      match c.gemini
      case None => Raise(AttributeError(AttributeOnNone))
      case Some(g) => Ok(Or(g.apiKey, Getenv(env, GoogleKeyVar)))
  }

  /** Configuration validity is decided field by field: the same value of one
      field is accepted for OpenAI and rejected for Gemini. */
  lemma TemperatureRangesDiffer()
    ensures ValidOpenAI(DefaultOpenAI().(temperature := 1.5))
    ensures !ValidGemini(DefaultGemini().(temperature := 1.5))
  {
  }

  /** An explicit, non-empty key wins over the environment. */
  lemma ExplicitKeyWins(c: ChatConfig, env: Env, key: string)
    requires c.provider == "gemini" && c.gemini.Some? && c.gemini.value.apiKey == Some(key) && key != ""
    ensures GetApiKey(c, env) == Ok(Some(key))
  {
  }

  /** An empty explicit key falls back to the environment, like a missing one. */
  lemma EmptyKeyFallsBack(c: ChatConfig, env: Env)
    requires c.gemini.Some? && c.gemini.value.apiKey in {None, Some("")}
    requires c.provider != "openai"
    ensures GetApiKey(c, env) == Ok(Getenv(env, GoogleKeyVar))
  {
  }
}

=== FILE: commands.dfy ===
/**
 The terminal front end's decision logic: building the chat configuration
 from the parsed arguments, classifying each input line, and the read-send-
 print loop over a finite stream of input events.
 */
module Commands {
  import opened Python
  import opened Sdk
  import opened ChatConfigs
  import Chat

  // ---------------------------------------------------------------- setup_chat

  /** The attributes `setup_chat` reads from its `argparse.Namespace`, each
      `None` when the namespace lacks it. `max_tokens` feeds `max_output_tokens`. */
  datatype Args = Args(temperature: Option<real>, topP: Option<real>, topK: Option<int>, maxTokens: Option<int>)

  /** A namespace without any of the attributes, as `argparse.Namespace()`. */
  const NoArgs := Args(None, None, None, None)

  /** The configuration `setup_chat` constructs: always the Gemini provider,
      each sampling parameter from the arguments or its default. */
  function SetupConfig(args: Args): (r: Result<ChatConfig>)
    ensures r.Ok? ==>
              && r.value.provider == "gemini" && r.value.openai.None? && r.value.gemini.Some?
              && r.value.gemini.value.model == "gemini-pro"
              && r.value.gemini.value.apiKey.None?
              && r.value.gemini.value.temperature == args.temperature.GetOr(0.7)
              && r.value.gemini.value.topP == args.topP.GetOr(0.8)
              && r.value.gemini.value.topK == args.topK.GetOr(40)
              && r.value.gemini.value.maxOutputTokens == args.maxTokens.GetOr(2048)
    // construction fails exactly when a supplied value is out of range
    ensures r.Ok? <==>
              && (args.temperature.Some? ==> 0.0 <= args.temperature.value <= 1.0)
              && (args.topP.Some? ==> 0.0 <= args.topP.value <= 1.0)
              && (args.topK.Some? ==> args.topK.value >= 1)
              && (args.maxTokens.Some? ==> args.maxTokens.value >= 1)
    ensures r.Raise? ==> r.error.ValidationError?
  {
    Validate(ChatConfig("gemini", None, Some(GeminiConfig(
      "gemini-pro",
      args.temperature.GetOr(0.7),
      args.topP.GetOr(0.8),
      args.topK.GetOr(40),
      args.maxTokens.GetOr(2048),
      None))))
  }

  /** Without arguments, `setup_chat` builds exactly the default configuration. */
  lemma SetupWithoutArgsIsDefault()
    ensures SetupConfig(NoArgs) == Ok(DefaultChat())
  {
  }

  /** `setup_chat(args or argparse.Namespace())`: configure, then construct a
      session without a system message. A configuration error calls nothing. */
  function SetupChat(b: Backend, env: Env, args: Option<Args>): (c: Chat.Construction)
    ensures SetupConfig(args.GetOr(NoArgs)).Raise? ==>
              c == Chat.Construction(Raise(SetupConfig(args.GetOr(NoArgs)).error), [])
    ensures SetupConfig(args.GetOr(NoArgs)).Ok? ==>
              c == Chat.NewChat(b, env, Some(SetupConfig(args.GetOr(NoArgs)).value), None)
  {
    match SetupConfig(args.GetOr(NoArgs))
    case Raise(e) => Chat.Construction(Raise(e), [])
    case Ok(config) => Chat.NewChat(b, env, Some(config), None)
  }

  // ---------------------------------------------------------------- one input line

  datatype Action = Skip | Quit | Dispatch

  const ExitWords: seq<string> := ["exit", "quit", "q"]

  /** `line` spells the lower-case ASCII `word`, each letter in either case. */
  predicate SpellsIgnoringCase(line: string, word: string) {
    && |line| == |word|
    && forall i | 0 <= i < |word| :: line[i] == word[i] || line[i] as int == word[i] as int - 32
  }

  predicate LowerAsciiWord(w: string) {
    |w| > 0 && forall i | 0 <= i < |w| :: 'a' <= w[i] <= 'z'
  }

  lemma LowerMatches(line: string, word: string)
    requires LowerAsciiWord(word)
    ensures Lower(line) == word <==> SpellsIgnoringCase(line, word)
  {
    if SpellsIgnoringCase(line, word) {
      assert forall i | 0 <= i < |word| :: Lower(line)[i] == word[i];
    }
  }

  /** The rule the terminal loop applies to each line read: blank lines are
      skipped, an exit word ends the session, anything else is sent. */
  function Classify(line: string): (a: Action)
    ensures a == Skip <==> Blank(line)
  {
    StripEmptyIffBlank(line);
    if Strip(line) == [] then Skip
    else if Lower(line) in ExitWords then Quit
    else Dispatch
  }

  /** A line is skipped exactly when it is all whitespace, and ends the
      session exactly when it is "exit", "quit" or "q" in any letter case,
      with no surrounding whitespace. */
  lemma ClassifySpec(line: string)
    ensures Classify(line) == Skip <==> Blank(line)
    ensures Classify(line) == Quit <==> exists w | w in ExitWords :: SpellsIgnoringCase(line, w)
  {
    StripEmptyIffBlank(line);
    LowerMatches(line, "exit");
    LowerMatches(line, "quit");
    LowerMatches(line, "q");
    assert SpellsIgnoringCase(line, "q") || SpellsIgnoringCase(line, "exit") || SpellsIgnoringCase(line, "quit")
           ==> !IsSpace(line[0]);
  }

  /** Surrounding whitespace makes an exit word an ordinary message. */
  lemma PaddedExitWordIsSent()
    ensures Classify(" quit") == Dispatch
  {
    ClassifySpec(" quit");
    assert !IsSpace(" quit"[1]);
    assert !SpellsIgnoringCase(" quit", "quit");
  }

  /** Letter case does not matter to the exit words. */
  lemma MixedCaseExitWordQuits()
    ensures Classify("QuIt") == Quit
  {
    ClassifySpec("QuIt");
    assert SpellsIgnoringCase("QuIt", "quit");
  }

  /** A line of whitespace alone is skipped. */
  lemma WhitespaceLineIsSkipped()
    ensures Classify(" \t\n") == Skip
  {
    ClassifySpec(" \t\n");
    assert IsSpace(" \t\n"[0]) && IsSpace(" \t\n"[1]) && IsSpace(" \t\n"[2]);
  }

  // ---------------------------------------------------------------- the loop

  /** What one `input()` call yields: a line, Ctrl-C, or a single
      `EOFError` (Ctrl-D at a terminal, after which reading can go on) with
      the text `str(e)` gives for it: empty when standard input and output
      are both terminals, `EofMessage` otherwise. The end of the sequence of
      inputs is the end of a redirected standard input, where every further
      `input()` raises `EOFError` with `EofMessage`. */
  datatype Input = Line(text: string) | Interrupt | EndOfFile(message: string)

  /** What the loop prints after sending a line: the reply, or the error. */
  datatype Printed = Answer(text: string) | ErrorReport(message: string)

  /** The loop's state: the session, what it printed, the lines it sent, and
      the library calls made since setup began. */
  datatype Terminal = Terminal(chat: Chat.ChatState, printed: seq<Printed>, sent: seq<string>, trace: seq<Call>)

  /** What the loop prints for the outcome of one `send_message`. */
  function Shown(res: Result<string>): Printed
    requires res.Raise? ==> !res.error.ValidationError?
  {
    match res
    case Ok(reply) => Answer(reply)
    case Raise(e) => ErrorReport(Str(e))
  }

  /** Sending one line and printing the reply or, on failure, the error; the loop goes on either way. */
  function Deliver(b: Backend, t: Terminal, line: string): (r: Terminal)
    ensures r.sent == t.sent + [line]
    ensures |r.printed| == |t.printed| + 1 && r.printed[..|t.printed|] == t.printed
    ensures r.chat.config == t.chat.config && r.chat.systemMessage == t.chat.systemMessage
    // the session moves on as `send_message` leaves it, and the library calls it made are recorded
    ensures var st := Chat.SendMessage(b, t.chat, line);
      r.chat == st.state && r.trace == t.trace + st.trace
    ensures var st := Chat.SendMessage(b, t.chat, line);
      && (st.result.Ok? ==> r.printed[|t.printed|] == Answer(st.result.value))
      && (st.result.Raise? ==> r.printed[|t.printed|] == ErrorReport(st.result.error.message))
  {
    var st := Chat.SendMessage(b, t.chat, line);
    Terminal(st.state, t.printed + [Shown(st.result)], t.sent + [line], t.trace + st.trace)
  }

  /** An input that ends the loop: Ctrl-C, end of file, or an exit word. */
  predicate Stops(i: Input) {
    i.Interrupt? || i.EndOfFile? || Classify(i.text) == Quit
  }

  /** The position of the first input that ends the loop, or the length. */
  function StopAt(inputs: seq<Input>): (n: nat)
    ensures n <= |inputs|
    ensures forall j | 0 <= j < n :: !Stops(inputs[j])
    ensures n < |inputs| ==> Stops(inputs[n])
  {
    if |inputs| == 0 then 0
    else if Stops(inputs[0]) then 0
    else 1 + StopAt(inputs[1..])
  }

  /** The lines among `inputs` that the loop sends rather than skips, in order. */
  function Sendable(inputs: seq<Input>): seq<string> {
    if |inputs| == 0 then []
    else (if inputs[0].Line? && Classify(inputs[0].text) == Dispatch then [inputs[0].text] else [])
         + Sendable(inputs[1..])
  }

  /** The lines sent before the first stop: none if the first input stops,
      else the first input's contribution followed by the rest's. */
  lemma SendableBeforeStop(inputs: seq<Input>)
    requires |inputs| > 0
    ensures Stops(inputs[0]) ==> Sendable(inputs[..StopAt(inputs)]) == []
    ensures !Stops(inputs[0]) ==>
              Sendable(inputs[..StopAt(inputs)])
              == (if inputs[0].Line? && Classify(inputs[0].text) == Dispatch then [inputs[0].text] else [])
                 + Sendable(inputs[1..][..StopAt(inputs[1..])])
  {
    if !Stops(inputs[0]) {
      var p := inputs[..StopAt(inputs)];
      assert p[0] == inputs[0];
      assert p[1..] == inputs[1..][..StopAt(inputs[1..])];
    }
  }

  /** One non-stopping line: sent and answered, or skipped when blank. */
  function Consume(b: Backend, t: Terminal, line: string): (r: Terminal)
    ensures r.sent == t.sent + (if Classify(line) == Dispatch then [line] else [])
    ensures |r.printed| - |t.printed| == |r.sent| - |t.sent| && t.printed <= r.printed
    ensures r.chat.config == t.chat.config && r.chat.systemMessage == t.chat.systemMessage
    // a line that is sent goes through `Deliver`; any other line changes nothing at all
    ensures Classify(line) == Dispatch ==> r == Deliver(b, t, line)
    ensures Classify(line) != Dispatch ==> r == t
  {
    if Classify(line) == Dispatch then Deliver(b, t, line) else t
  }

  /** What the loop does with one line that does not stop it, for a given backend. */
  function StepOf(b: Backend): (Terminal, string) -> Terminal {
    (t: Terminal, line: string) => Consume(b, t, line)
  }

  /** The texts of the lines among `inputs`, in order. */
  function Texts(inputs: seq<Input>): seq<string> {
    if |inputs| == 0 then []
    else (if inputs[0].Line? then [inputs[0].text] else []) + Texts(inputs[1..])
  }

  /** `f` applied to each of `lines` in turn, starting from `t`. */
  function Apply(f: (Terminal, string) -> Terminal, t: Terminal, lines: seq<string>): Terminal
    decreases |lines|
  {
    if |lines| == 0 then t else Apply(f, f(t, lines[0]), lines[1..])
  }

  /** `Apply` over a line followed by more lines. */
  lemma ApplyCons(f: (Terminal, string) -> Terminal, t: Terminal, line: string, rest: seq<string>)
    ensures Apply(f, t, [line] + rest) == Apply(f, f(t, line), rest)
  {
    assert ([line] + rest)[0] == line && ([line] + rest)[1..] == rest;
  }

  /** The lines read before the first stop: none if the first input stops,
      else the first input's text followed by the rest's. */
  lemma TextsBeforeStop(inputs: seq<Input>)
    requires |inputs| > 0 && !Stops(inputs[0])
    ensures Texts(inputs[..StopAt(inputs)]) == [inputs[0].text] + Texts(inputs[1..][..StopAt(inputs[1..])])
  {
    var p := inputs[..StopAt(inputs)];
    assert p[0] == inputs[0];
    assert p[1..] == inputs[1..][..StopAt(inputs[1..])];
  }

  /** The `while True` loop of `terminal_chat`, stopping at end of input,
      for any treatment `step` of the lines that do not stop it. */
  function Loop(step: (Terminal, string) -> Terminal, t: Terminal, inputs: seq<Input>): (r: Terminal)
    // every line read before the first stopping input is handled once, in order; nothing after it
    ensures r == Apply(step, t, Texts(inputs[..StopAt(inputs)]))
    decreases |inputs|
  {
    if |inputs| == 0 then t
    else if Stops(inputs[0]) then t
    else
      TextsBeforeStop(inputs);
      ApplyCons(step, t, inputs[0].text, Texts(inputs[1..][..StopAt(inputs[1..])]));
      Loop(step, step(t, inputs[0].text), inputs[1..])
  }

  /** What the loop needs of its step: a line is sent exactly when it is to
      be dispatched, with one printed entry per line sent, nothing printed is
      lost, and the session's configuration stays as it was. */
  ghost predicate Accountable(step: (Terminal, string) -> Terminal) {
    forall t: Terminal, line: string ::
      && step(t, line).sent == t.sent + (if Classify(line) == Dispatch then [line] else [])
      && |step(t, line).printed| - |t.printed| == |step(t, line).sent| - |t.sent|
      && t.printed <= step(t, line).printed
      && step(t, line).chat.config == t.chat.config
      && step(t, line).chat.systemMessage == t.chat.systemMessage
  }

  lemma StepAccountable(b: Backend)
    ensures Accountable(StepOf(b))
  {
    forall t: Terminal, line: string
      ensures StepOf(b)(t, line) == Consume(b, t, line)
    {
    }
  }

  /** The lines among `lines` that are to be dispatched, in order. */
  function Dispatched(lines: seq<string>): seq<string> {
    if |lines| == 0 then []
    else (if Classify(lines[0]) == Dispatch then [lines[0]] else []) + Dispatched(lines[1..])
  }

  /** The sendable inputs are the dispatched texts. */
  lemma {:induction false} SendableTexts(inputs: seq<Input>)
    ensures Sendable(inputs) == Dispatched(Texts(inputs))
    decreases |inputs|
  {
    if |inputs| > 0 {
      SendableTexts(inputs[1..]);
      var rest := Texts(inputs[1..]);
      if inputs[0].Line? {
        var line := inputs[0].text;
        assert ([line] + rest)[0] == line && ([line] + rest)[1..] == rest;
      } else {
        assert [] + rest == rest;
      }
    }
  }

  /** An accountable step applied to `lines` sends the dispatched ones, in order. */
  lemma {:induction false} ApplySends(step: (Terminal, string) -> Terminal, t: Terminal, lines: seq<string>)
    requires Accountable(step)
    ensures Apply(step, t, lines).sent == t.sent + Dispatched(lines)
    decreases |lines|
  {
    if |lines| > 0 {
      var next := step(t, lines[0]);
      ApplySends(step, next, lines[1..]);
      var mine := if Classify(lines[0]) == Dispatch then [lines[0]] else [];
      assert next.sent + Dispatched(lines[1..]) == t.sent + (mine + Dispatched(lines[1..]));
    }
  }

  /** Over an accountable step, the loop sends the sendable lines before the
      first stop, each once and in order. */
  lemma LoopAccounts(step: (Terminal, string) -> Terminal, t: Terminal, inputs: seq<Input>)
    requires Accountable(step)
    ensures Loop(step, t, inputs).sent == t.sent + Sendable(inputs[..StopAt(inputs)])
  {
    var prefix := inputs[..StopAt(inputs)];
    ApplySends(step, t, Texts(prefix));
    SendableTexts(prefix);
  }

  /** Over an accountable step, the loop prints once for each line it sends,
      loses nothing printed, and keeps the configuration. */
  lemma {:induction false} LoopKeeps(step: (Terminal, string) -> Terminal, t: Terminal, inputs: seq<Input>)
    requires Accountable(step)
    ensures |Loop(step, t, inputs).printed| - |t.printed| == |Loop(step, t, inputs).sent| - |t.sent|
    ensures t.printed <= Loop(step, t, inputs).printed
    ensures Loop(step, t, inputs).chat.config == t.chat.config
    ensures Loop(step, t, inputs).chat.systemMessage == t.chat.systemMessage
    decreases |inputs|
  {
    if |inputs| > 0 && !Stops(inputs[0]) {
      LoopKeeps(step, step(t, inputs[0].text), inputs[1..]);
    }
  }

  /** The session's loop, stopping at end of input. */
  function Converse(b: Backend, t: Terminal, inputs: seq<Input>): (r: Terminal)
    // every sendable line before the first stopping input is sent once, in order; nothing else is
    ensures r.sent == t.sent + Sendable(inputs[..StopAt(inputs)])
    // each sent line gets exactly one printed reply or error
    ensures |r.printed| - |t.printed| == |r.sent| - |t.sent| && t.printed <= r.printed
    ensures r.chat.config == t.chat.config && r.chat.systemMessage == t.chat.systemMessage
    // the session, its handle history and the library calls are those of sending
    // the sendable lines one after another
    ensures r == Apply(DeliverOf(b), t, Sendable(inputs[..StopAt(inputs)]))
  {
    StepAccountable(b);
    LoopAccounts(StepOf(b), t, inputs);
    LoopKeeps(StepOf(b), t, inputs);
    StepFactors(b);
    LoopDelivers(StepOf(b), DeliverOf(b), t, inputs);
    Loop(StepOf(b), t, inputs)
  }

  /** What sending the line at hand does, for a given backend. */
  function DeliverOf(b: Backend): (Terminal, string) -> Terminal {
    (t: Terminal, line: string) => Deliver(b, t, line)
  }

  /** `step` handles a line by `deliver` when it is to be dispatched and
      leaves the state alone otherwise. */
  ghost predicate Factors(step: (Terminal, string) -> Terminal, deliver: (Terminal, string) -> Terminal) {
    forall t: Terminal, line: string ::
      step(t, line) == if Classify(line) == Dispatch then deliver(t, line) else t
  }

  lemma StepFactors(b: Backend)
    ensures Factors(StepOf(b), DeliverOf(b))
  {
    forall t: Terminal, line: string
      ensures StepOf(b)(t, line) == if Classify(line) == Dispatch then DeliverOf(b)(t, line) else t
    {
    }
  }

  /** Over a step that factors through `deliver`, the loop delivers exactly
      the sendable lines before the first stop, in order. */
  lemma {:induction false} LoopDelivers(step: (Terminal, string) -> Terminal, deliver: (Terminal, string) -> Terminal,
                                        t: Terminal, inputs: seq<Input>)
    requires Factors(step, deliver)
    ensures Loop(step, t, inputs) == Apply(deliver, t, Sendable(inputs[..StopAt(inputs)]))
    decreases |inputs|
  {
    if |inputs| > 0 {
      SendableBeforeStop(inputs);
      if !Stops(inputs[0]) {
        var line := inputs[0].text;
        var theirs := Sendable(inputs[1..][..StopAt(inputs[1..])]);
        LoopDelivers(step, deliver, step(t, line), inputs[1..]);
        if Classify(line) == Dispatch {
          ApplyCons(deliver, t, line, theirs);
        } else {
          assert [] + theirs == theirs;
        }
      }
    }
  }

  /** What the loop needs of the delivery of one line: the line is sent, one
      entry is printed, and nothing printed before is lost. */
  ghost predicate Delivers(f: (Terminal, string) -> Terminal) {
    forall t: Terminal, line: string ::
      && f(t, line).sent == t.sent + [line]
      && |f(t, line).printed| == |t.printed| + 1
      && t.printed <= f(t, line).printed
  }

  lemma DeliverOfDelivers(b: Backend)
    ensures Delivers(DeliverOf(b))
  {
    forall t: Terminal, line: string
      ensures DeliverOf(b)(t, line) == Deliver(b, t, line)
    {
    }
  }

  /** Delivering lines one by one keeps what was printed and sent, and adds
      one printed entry and one sent line per line. */
  lemma {:induction false} RepliesKeep(f: (Terminal, string) -> Terminal, t: Terminal, lines: seq<string>)
    requires Delivers(f)
    ensures var r := Apply(f, t, lines);
      && r.sent == t.sent + lines
      && |r.printed| == |t.printed| + |lines| && t.printed <= r.printed
    decreases |lines|
  {
    if |lines| > 0 {
      var next := f(t, lines[0]);
      RepliesKeep(f, next, lines[1..]);
      assert next.sent + lines[1..] == t.sent + lines;
    }
  }

  /** The `k`-th printed entry is the one printed when the `k`-th line was
      delivered, in the state the earlier lines left. */
  lemma {:induction false} RepliesPair(f: (Terminal, string) -> Terminal, t: Terminal, lines: seq<string>, k: nat)
    requires Delivers(f) && k < |lines|
    ensures var r := Apply(f, t, lines);
      var before := Apply(f, t, lines[..k]);
      && |before.printed| == |t.printed| + k < |r.printed|
      && r.printed[|t.printed| + k] == f(before, lines[k]).printed[|before.printed|]
    decreases k
  {
    var next := f(t, lines[0]);
    RepliesKeep(f, next, lines[1..]);
    if k == 0 {
      assert lines[..0] == [];
    } else {
      RepliesPair(f, next, lines[1..], k - 1);
      assert lines[..k][0] == lines[0] && lines[..k][1..] == lines[1..][..k - 1];
    }
  }

  /** The session's loop sends the sendable lines before the first stop and
      prints, for each in turn, its own reply or error. */
  lemma ConversePairs(b: Backend, t: Terminal, inputs: seq<Input>, k: nat)
    requires k < |Sendable(inputs[..StopAt(inputs)])|
    ensures var lines := Sendable(inputs[..StopAt(inputs)]);
      var r := Converse(b, t, inputs);
      && r == Apply(DeliverOf(b), t, lines)
      && r.sent[|t.sent| + k] == lines[k]
      && r.printed[|t.printed| + k]
         == Shown(Chat.SendMessage(b, Apply(DeliverOf(b), t, lines[..k]).chat, lines[k]).result)
  {
    StepFactors(b);
    LoopDelivers(StepOf(b), DeliverOf(b), t, inputs);
    var lines := Sendable(inputs[..StopAt(inputs)]);
    DeliverOfDelivers(b);
    RepliesKeep(DeliverOf(b), t, lines);
    RepliesPair(DeliverOf(b), t, lines, k);
    var before := Apply(DeliverOf(b), t, lines[..k]);
    assert DeliverOf(b)(before, lines[k]) == Deliver(b, before, lines[k]);
  }

  /** `terminal_chat(args)`: set up the session (a setup failure propagates),
      then converse. */
  function TerminalChat(b: Backend, env: Env, args: Option<Args>, inputs: seq<Input>): (r: Result<Terminal>)
    ensures SetupChat(b, env, args).result.Raise? <==> r.Raise?
    ensures r.Raise? ==> r.error == SetupChat(b, env, args).result.error
    ensures r.Ok? ==>
              && r.value.sent == Sendable(inputs[..StopAt(inputs)])
              && |r.value.printed| == |r.value.sent|
              && r.value.chat.config == SetupChat(b, env, args).result.value.config
    // after setup, the session is the one sending the sendable lines in turn leaves,
    // with the calls of setup followed by those of every send
    ensures r.Ok? ==>
              r.value == Apply(DeliverOf(b), Terminal(SetupChat(b, env, args).result.value, [], [], SetupChat(b, env, args).trace),
                               Sendable(inputs[..StopAt(inputs)]))
  {
    var c := SetupChat(b, env, args);
    match c.result
    case Raise(e) => Raise(e)
    case Ok(s) => Ok(Converse(b, Terminal(s, [], [], c.trace), inputs))
  }

  // ---------------------------------------------------------------- the loop as written

  /** `str(EOFError())` as raised by `input()` at end of input. */
  const EofMessage := "EOF when reading a line"

  datatype Looping = Ended(state: Terminal) | Running(state: Terminal)

  /** The loop exactly as written, run for at most `fuel` iterations. At an
      end of file `input()` raises `EOFError`, which the `except Exception`
      clause reports before going round again; once the input is exhausted
      that happens on every iteration. */
  function LoopAsWritten(step: (Terminal, string) -> Terminal, t: Terminal, inputs: seq<Input>, fuel: nat): (r: Looping)
    // only a Ctrl-C or an exit word ends it; an end of file never does
    ensures r.Ended? ==> exists j | 0 <= j < |inputs| :: inputs[j].Interrupt? || (inputs[j].Line? && Classify(inputs[j].text) == Quit)
    decreases fuel
  {
    if fuel == 0 then Running(t)
    else if |inputs| == 0 then
      LoopAsWritten(step, t.(printed := t.printed + [ErrorReport(EofMessage)]), inputs, fuel - 1)
    else if inputs[0].EndOfFile? then
      LoopAsWritten(step, t.(printed := t.printed + [ErrorReport(inputs[0].message)]), inputs[1..], fuel - 1)
    else if Stops(inputs[0]) then Ended(t)
    else LoopAsWritten(step, step(t, inputs[0].text), inputs[1..], fuel - 1)
  }

  /** Once standard input is exhausted the loop as written never ends: every
      iteration prints the same error and sends nothing. */
  lemma {:induction false} EndOfInputNeverEnds(step: (Terminal, string) -> Terminal, t: Terminal, fuel: nat)
    ensures LoopAsWritten(step, t, [], fuel)
            == Running(t.(printed := t.printed + seq(fuel, _ => ErrorReport(EofMessage))))
    decreases fuel
  {
    if fuel > 0 {
      var t' := t.(printed := t.printed + [ErrorReport(EofMessage)]);
      EndOfInputNeverEnds(step, t', fuel - 1);
      assert t'.printed + seq(fuel - 1, _ => ErrorReport(EofMessage))
             == t.printed + seq(fuel, _ => ErrorReport(EofMessage));
    }
  }

  /** A single end of file does not end the loop as written: it prints the
      error and reads on, where `Loop` stops. */
  lemma EndOfFileReadsOn(step: (Terminal, string) -> Terminal, t: Terminal, message: string, rest: seq<Input>, fuel: nat)
    ensures Loop(step, t, [EndOfFile(message)] + rest) == t
    ensures LoopAsWritten(step, t, [EndOfFile(message)] + rest, fuel + 1)
            == LoopAsWritten(step, t.(printed := t.printed + [ErrorReport(message)]), rest, fuel)
  {
    assert ([EndOfFile(message)] + rest)[0] == EndOfFile(message) && ([EndOfFile(message)] + rest)[1..] == rest;
  }

  /** Before any end of file the two loops agree: given a stopping input
      other than an end of file and enough iterations, the loop as written
      ends where `Loop` does. */
  lemma {:induction false} AgreesBeforeEndOfInput(step: (Terminal, string) -> Terminal, t: Terminal, inputs: seq<Input>, fuel: nat)
    requires StopAt(inputs) < |inputs| && !inputs[StopAt(inputs)].EndOfFile? && fuel > StopAt(inputs)
    ensures LoopAsWritten(step, t, inputs, fuel) == Ended(Loop(step, t, inputs))
    decreases |inputs|
  {
    if Stops(inputs[0]) {
      assert !inputs[0].EndOfFile?;
      assert LoopAsWritten(step, t, inputs, fuel) == Ended(t);
      assert Loop(step, t, inputs) == t;
    } else {
      var line := inputs[0].text;
      assert StopAt(inputs[1..]) == StopAt(inputs) - 1;
      assert inputs[1..][StopAt(inputs[1..])] == inputs[StopAt(inputs)];
      AgreesBeforeEndOfInput(step, step(t, line), inputs[1..], fuel - 1);
      assert LoopAsWritten(step, t, inputs, fuel) == LoopAsWritten(step, step(t, line), inputs[1..], fuel - 1);
      assert Loop(step, t, inputs) == Loop(step, step(t, line), inputs[1..]);
    }
  }
}

=== FILE: fallback.dfy ===
/**
 The "try each candidate model in order, stop at the first success" walk that
 the core runs three times: when probing at initialisation, when creating a
 chat handle, and when answering a message without the chat handle. A walk
 looks at one candidate at a time; the candidate either succeeds (the walk
 stops with its value), declines quietly, or fails with an error the walk
 remembers as its `last_error`.
 */
module Fallback {
  import opened Python

  /** What trying one candidate gave. */
  datatype Attempt<+T> = Succeeded(value: T) | Declined | Failed(error: string)

  /** How a walk ended: the first success, or exhaustion with the last error seen. */
  datatype Walk<+T> = Found(index: nat, value: T) | Exhausted(lastError: Option<string>)

  /** `i` is the first candidate at or after `from` that succeeds. */
  ghost predicate FirstSuccessAt<T>(cs: seq<string>, attempt: string -> Attempt<T>, from: nat, i: nat) {
    && from <= i < |cs|
    && attempt(cs[i]).Succeeded?
    && forall j | from <= j < i :: !attempt(cs[j]).Succeeded?
  }

  /** `e` is the error of the last failing candidate at or after `from`, or
      `last` when none of them fails. */
  ghost predicate LastFailureIs<T>(cs: seq<string>, attempt: string -> Attempt<T>, from: nat, last: Option<string>, e: Option<string>) {
    || (e == last && forall j | from <= j < |cs| :: !attempt(cs[j]).Failed?)
    || (exists j | from <= j < |cs| ::
          && attempt(cs[j]).Failed?
          && e == Some(attempt(cs[j]).error)
          && forall k | j < k < |cs| :: !attempt(cs[k]).Failed?)
  }

  /** The walk from candidate `i` on, `last` being the last error seen so far:
      Python's `for` loop with `break`/`return` on success and `continue` otherwise. */
  function Walking<T>(cs: seq<string>, attempt: string -> Attempt<T>, i: nat, last: Option<string>): (w: Walk<T>)
    requires i <= |cs|
    ensures w.Found? ==> FirstSuccessAt(cs, attempt, i, w.index) && attempt(cs[w.index]).value == w.value
    ensures w.Exhausted? ==> forall j | i <= j < |cs| :: !attempt(cs[j]).Succeeded?
    ensures w.Exhausted? ==> LastFailureIs(cs, attempt, i, last, w.lastError)
    decreases |cs| - i
  {
    if i == |cs| then Exhausted(last)
    else
      match attempt(cs[i])
      case Succeeded(v) => Found(i, v)
      case Declined => Walking(cs, attempt, i + 1, last)
      case Failed(e) => Walking(cs, attempt, i + 1, Some(e))
  }

  /** The whole walk, starting with no error seen (`last_error = None`). */
  function FirstSuccess<T>(cs: seq<string>, attempt: string -> Attempt<T>): (w: Walk<T>)
    ensures w.Found? ==> FirstSuccessAt(cs, attempt, 0, w.index) && attempt(cs[w.index]).value == w.value
    ensures w.Exhausted? ==>
              && (forall j | 0 <= j < |cs| :: !attempt(cs[j]).Succeeded?)
              && LastFailureIs(cs, attempt, 0, None, w.lastError)
  {
    Walking(cs, attempt, 0, None)
  }

  /** How many candidates the walk tried: up to and including the winner, or all. */
  function Tried<T>(cs: seq<string>, w: Walk<T>): nat {
    if w.Found? then w.index + 1 else |cs|
  }

  /** The walk finds a value exactly when some candidate succeeds; it then
      returns the first one, and no candidate after it is tried. */
  lemma FirstSuccessSpec<T>(cs: seq<string>, attempt: string -> Attempt<T>)
    ensures var w := FirstSuccess(cs, attempt);
      && (w.Found? <==> exists i | 0 <= i < |cs| :: attempt(cs[i]).Succeeded?)
      && (w.Found? ==> Tried(cs, w) == w.index + 1 <= |cs|)
      && (w.Exhausted? ==> Tried(cs, w) == |cs|)
  {
  }

  /** The error a walk ends with when nothing succeeds is that of the last
      failing candidate, and `None` only when no candidate failed. */
  lemma {:induction false} LastErrorSpec<T>(cs: seq<string>, attempt: string -> Attempt<T>)
    requires FirstSuccess(cs, attempt).Exhausted?
    ensures var e := FirstSuccess(cs, attempt).lastError;
      && (e.None? <==> forall j | 0 <= j < |cs| :: !attempt(cs[j]).Failed?)
      && (e.Some? ==> exists j | 0 <= j < |cs| ::
            attempt(cs[j]) == Failed(e.value) && forall k | j < k < |cs| :: !attempt(cs[k]).Failed?)
  {
  }

  /** When every candidate fails, the last error is that of the last candidate. */
  lemma AllFailedLastError<T>(cs: seq<string>, attempt: string -> Attempt<T>)
    requires |cs| > 0
    requires forall j | 0 <= j < |cs| :: attempt(cs[j]).Failed?
    ensures FirstSuccess(cs, attempt) == Exhausted(Some(attempt(cs[|cs| - 1]).error))
  {
  }

  /** The loop as the source writes it: walk the candidates with a running
      `last_error`, returning at the first success. It ends exactly as the
      functional walk does and reports how many candidates it tried. */
  method RunWalk<T>(cs: seq<string>, attempt: string -> Attempt<T>) returns (w: Walk<T>, tried: nat)
    ensures w == FirstSuccess(cs, attempt)
    ensures tried == Tried(cs, w)
  {
    var lastError: Option<string> := None;
    for i := 0 to |cs|
      invariant Walking(cs, attempt, i, lastError) == FirstSuccess(cs, attempt)
    {
      match attempt(cs[i]) {
        case Succeeded(v) =>
          return Found(i, v), i + 1;
        case Declined =>
        case Failed(e) =>
          lastError := Some(e);
      }
    }
    return Exhausted(lastError), |cs|;
  }
}

=== FILE: gemini_utils.dfy ===
/**
 The three model-fallback walks of the Gemini helper module: the probe run by
 `initialize_gemini`, chat-handle creation in `get_gemini_chat`, and message
 dispatch in `get_chat_response` (the chat handle first, then a stateless walk).
 */
module GeminiUtils {
  import opened Python
  import opened Sdk
  import opened Fallback
  import ChatConfigs

  const ProbePrompt := "Hello, testing the API."

  /** The fixed preference order, most preferred first. */
  const FallbackModels: seq<string> := ["models/gemini-pro", "models/gemini-2.0-flash", "models/gemini-2.0-flash-lite"]

  const NoKeyMessage := "No Gemini API key provided"
  const InitPrefix := "Failed to initialize Gemini API: "
  const NoModelsMessage := "No models available. Check your API key."
  const NoProbeMessage := "Failed to initialize with any available model"
  const ChatPrefix := "Failed to create Gemini chat instance with any model: "
  const ResponsePrefix := "Failed to get chat response: "
  const AnyModelPrefix := "Failed to get response from any model: "

  /** A call's result together with the library calls it made, in order. */
  datatype Run<+T> = Run(result: Result<T>, trace: seq<Call>)

  // ---------------------------------------------------------------- initialize_gemini

  /** The key `initialize_gemini` works with: the argument, or the
      environment's only when the argument is `None` (not when it is ""). */
  function InitKey(apiKey: Option<string>, env: Env): Option<string> {
    if apiKey.None? then Getenv(env, ChatConfigs.GoogleKeyVar) else apiKey
  }

  /** `configure` accepted the key and `list_models` gave a non-empty list. */
  predicate ReachesProbe(b: Backend, key: string) {
    b.configure(key).None? && b.listModels.Listed? && |b.listModels.models| > 0
  }

  /** The probe prompt sent to `model` got a truthy response. */
  predicate ProbeAnswers(b: Backend, model: string) {
    var o := b.generate(model, ProbePrompt);
    o.Returned? && o.response.truthy
  }

  /** Candidate `i` is the first probe candidate that answers. */
  predicate FirstProbe(b: Backend, i: int) {
    && 0 <= i < |FallbackModels|
    && ProbeAnswers(b, FallbackModels[i])
    && forall j | 0 <= j < i :: !ProbeAnswers(b, FallbackModels[j])
  }

  /** One probe: a truthy response succeeds; anything else, raising
      included, is passed over without being recorded. */
  function ProbeAttempt(b: Backend, model: string): Attempt<()> {
    match b.generate(model, ProbePrompt)
    case Returned(r) => if r.truthy then Succeeded(()) else Declined
    case Raised(_) => Declined
  }

  function InitializeGemini(b: Backend, apiKey: Option<string>, env: Env): (run: Run<()>)
    // it never sends on a chat handle
    ensures forall i | 0 <= i < |run.trace| :: !run.trace[i].Send?
    // without a usable key it fails before touching the library
    ensures !Truthy(InitKey(apiKey, env)) <==> run.trace == []
    ensures !Truthy(InitKey(apiKey, env)) ==> run.result == Raise(ValueError(NoKeyMessage))
    // with one, the key is configured first and every failure is re-wrapped
    ensures Truthy(InitKey(apiKey, env)) ==> run.trace[0] == Configure(InitKey(apiKey, env).value)
    ensures Truthy(InitKey(apiKey, env)) && run.result.Raise? ==>
              run.result.error.ValueError? && InitPrefix <= run.result.error.message
    // a failing `configure` or `list_models`, or an empty listing, ends it at once with that error
    ensures Truthy(InitKey(apiKey, env)) && b.configure(InitKey(apiKey, env).value).Some? ==>
              run == Run(Raise(ValueError(InitPrefix + b.configure(InitKey(apiKey, env).value).value)),
                         [Configure(InitKey(apiKey, env).value)])
    ensures Truthy(InitKey(apiKey, env)) && b.configure(InitKey(apiKey, env).value).None? && b.listModels.ListingRaised? ==>
              run == Run(Raise(ValueError(InitPrefix + b.listModels.error)), [Configure(InitKey(apiKey, env).value), ListModels])
    ensures Truthy(InitKey(apiKey, env)) && b.configure(InitKey(apiKey, env).value).None? && b.listModels == Listed([]) ==>
              run == Run(Raise(ValueError(InitPrefix + NoModelsMessage)), [Configure(InitKey(apiKey, env).value), ListModels])
    // it succeeds exactly when the listing is usable and some candidate answers the probe
    ensures run.result.Ok? <==>
              && Truthy(InitKey(apiKey, env))
              && ReachesProbe(b, InitKey(apiKey, env).value)
              && exists i | 0 <= i < |FallbackModels| :: ProbeAnswers(b, FallbackModels[i])
    // the first answering candidate wins and no later one is tried
    ensures run.result.Ok? ==> exists i | FirstProbe(b, i) ::
              run.trace == [Configure(InitKey(apiKey, env).value), ListModels]
                           + GenerateCalls(FallbackModels[..i + 1], ProbePrompt)
    // when none answers, all are tried and the failure does not name an error
    ensures run.result.Raise? && Truthy(InitKey(apiKey, env)) && ReachesProbe(b, InitKey(apiKey, env).value) ==>
              && run.result == Raise(ValueError(InitPrefix + NoProbeMessage))
              && run.trace == [Configure(InitKey(apiKey, env).value), ListModels]
                              + GenerateCalls(FallbackModels, ProbePrompt)
  {
    var key := InitKey(apiKey, env);
    if !Truthy(key) then Run(Raise(ValueError(NoKeyMessage)), [])
    else
      var k := key.value;
      match b.configure(k)
      case Some(e) => Run(Raise(ValueError(InitPrefix + e)), [Configure(k)])
      case None =>
        match b.listModels
        case ListingRaised(e) => Run(Raise(ValueError(InitPrefix + e)), [Configure(k), ListModels])
        case Listed(models) =>
          if |models| == 0 then
            // the inner ValueError is caught and re-wrapped by the outer handler
            Run(Raise(ValueError(InitPrefix + NoModelsMessage)), [Configure(k), ListModels])
          else
            var attempt := m => ProbeAttempt(b, m);
            var w := FirstSuccess(FallbackModels, attempt);
            var probes := GenerateCalls(FallbackModels[..Tried(FallbackModels, w)], ProbePrompt);
            assert w.Found? ==> FirstProbe(b, w.index);
            assert w.Exhausted? ==> FallbackModels[..Tried(FallbackModels, w)] == FallbackModels;
            Run(if w.Found? then Ok(()) else Raise(ValueError(InitPrefix + NoProbeMessage)),
                [Configure(k), ListModels] + probes)
  }

  // ---------------------------------------------------------------- get_gemini_chat

  /** The candidates `get_gemini_chat` tries: the requested model, then the fixed list. */
  function ChatCandidates(model: string): seq<string> {
    [model] + FallbackModels
  }

  /** `safety_settings or []`. */
  function SafetyOrEmpty(safetySettings: Option<seq<SafetySetting>>): seq<SafetySetting> {
    match safetySettings
    case None => []
    case Some(s) => s
  }

  /** Building a chat model on `model` and starting a chat with empty history. */
  function ChatAttempt(b: Backend, generation: GenerationConfig, safety: seq<SafetySetting>, model: string): Attempt<Handle> {
    match b.startChat(model, generation, safety)
    case Some(e) => Failed(e)
    case None => Succeeded(Handle(model, generation, safety, []))
  }

  function GetGeminiChat(
    b: Backend, model: string, temperature: real, topP: real, topK: int, maxOutputTokens: int,
    safetySettings: Option<seq<SafetySetting>>): (run: Run<Handle>)
    ensures forall i | 0 <= i < |run.trace| :: !run.trace[i].Send?
    // success: a fresh handle on the first candidate that starts, with the
    // sampling parameters passed through unchanged; later candidates untried
    ensures run.result.Ok? ==>
              && run.result.value.generation == GenerationConfig(temperature, topP, topK, maxOutputTokens)
              && run.result.value.safety == SafetyOrEmpty(safetySettings)
              && run.result.value.sent == []
              && exists i | 0 <= i < |ChatCandidates(model)| ::
                   && run.result.value.model == ChatCandidates(model)[i]
                   && b.startChat(ChatCandidates(model)[i], run.result.value.generation, run.result.value.safety).None?
                   && (forall j | 0 <= j < i ::
                         b.startChat(ChatCandidates(model)[j], run.result.value.generation, run.result.value.safety).Some?)
                   && run.trace == StartChatCalls(ChatCandidates(model)[..i + 1],
                                                  run.result.value.generation, run.result.value.safety)
    // it fails only when every candidate raised, and then reports the last one's error
    ensures run.result.Raise? ==>
              var generation := GenerationConfig(temperature, topP, topK, maxOutputTokens);
              var safety := SafetyOrEmpty(safetySettings);
              && (forall j | 0 <= j < |ChatCandidates(model)| ::
                    b.startChat(ChatCandidates(model)[j], generation, safety).Some?)
              && run.result.error == Exception(ChatPrefix + StrOpt(b.startChat(ChatCandidates(model)[3], generation, safety)))
              && run.trace == StartChatCalls(ChatCandidates(model), generation, safety)
  {
    var generation := GenerationConfig(temperature, topP, topK, maxOutputTokens);
    var safety := SafetyOrEmpty(safetySettings);
    var candidates := ChatCandidates(model);
    var attempt := m => ChatAttempt(b, generation, safety, m);
    var w := FirstSuccess(candidates, attempt);
    var calls := StartChatCalls(candidates[..Tried(candidates, w)], generation, safety);
    if w.Found? then
      Run(Ok(w.value), calls)
    else
      assert candidates[..Tried(candidates, w)] == candidates;
      AllFailedLastError(candidates, attempt);
      Run(Raise(Exception(ChatPrefix + StrOpt(w.lastError))), calls)
  }

  // ---------------------------------------------------------------- get_chat_response

  /** The outcome of the stateless request to `model` with the user's message:
      non-empty text succeeds, an empty reply is passed over, raising is recorded. */
  function TextAttempt(b: Backend, message: string, model: string): Attempt<string> {
    match b.generate(model, message)
    case Raised(e) => Failed(e)
    case Returned(r) => if r.truthy && r.text != "" then Succeeded(r.text) else Declined
  }

  /** The stateless request to candidate `i` is the first to give text. */
  predicate FirstText(b: Backend, message: string, i: int) {
    && 0 <= i < |FallbackModels|
    && HasText(b.generate(FallbackModels[i], message))
    && forall j | 0 <= j < i :: !HasText(b.generate(FallbackModels[j], message))
  }

  /** `e` is what the stateless walk reports as `last_error`: the error of the
      last candidate that raised, or `None` when none raised. */
  predicate LastRaised(b: Backend, message: string, e: Option<string>) {
    || (e.None? && forall j | 0 <= j < |FallbackModels| :: !b.generate(FallbackModels[j], message).Raised?)
    || (exists j | 0 <= j < |FallbackModels| ::
          && b.generate(FallbackModels[j], message).Raised?
          && e == Some(b.generate(FallbackModels[j], message).error)
          && forall k | j < k < |FallbackModels| :: !b.generate(FallbackModels[k], message).Raised?)
  }

  /** A dispatch: its result, the chat handle afterwards, and the calls made. */
  datatype Dispatch = Dispatch(result: Result<string>, handle: Handle, trace: seq<Call>)

  /** `get_chat_response`; the `stream` flag has no effect and is not modelled. */
  function GetChatResponse(b: Backend, chat: Handle, message: string): (d: Dispatch)
    // the message is always offered to the chat handle first
    ensures d.handle == chat.(sent := chat.sent + [message])
    ensures |d.trace| > 0 && d.trace[0] == Send(chat, message)
    // a reply with text from the handle is returned as is, with no further call
    ensures HasText(b.send(chat, message)) ==>
              d.result == Ok(b.send(chat, message).response.text) && d.trace == [Send(chat, message)]
    // an answer is never empty
    ensures d.result.Ok? ==> d.result.value != ""
    // a failure is a plain exception naming both failed stages
    ensures d.result.Raise? ==>
              d.result.error.Exception? && ResponsePrefix + AnyModelPrefix <= d.result.error.message
  {
    var handle := chat.(sent := chat.sent + [message]);
    var first := b.send(chat, message);
    if HasText(first) then
      Dispatch(Ok(first.response.text), handle, [Send(chat, message)])
    else
      var w := FirstSuccess(FallbackModels, m => TextAttempt(b, message, m));
      var calls := [Send(chat, message)] + GenerateCalls(FallbackModels[..Tried(FallbackModels, w)], message);
      if w.Found? then
        Dispatch(Ok(w.value), handle, calls)
      else
        Dispatch(Raise(Exception(ResponsePrefix + AnyModelPrefix + StrOpt(w.lastError))), handle, calls)
  }

  /** When the chat handle gives no text, the stateless models are asked in
      order: the first with text answers and later ones are not asked; when
      none has text, all were asked and the error wraps the last one raised. */
  lemma StatelessFallback(b: Backend, chat: Handle, message: string)
    requires !HasText(b.send(chat, message))
    ensures var d := GetChatResponse(b, chat, message);
      d.result.Ok? <==> exists i | 0 <= i < |FallbackModels| :: HasText(b.generate(FallbackModels[i], message))
    ensures var d := GetChatResponse(b, chat, message);
      d.result.Ok? ==>
        exists i | FirstText(b, message, i) ::
          && d.result.value == b.generate(FallbackModels[i], message).response.text
          && d.trace == [Send(chat, message)] + GenerateCalls(FallbackModels[..i + 1], message)
    ensures var d := GetChatResponse(b, chat, message);
      d.result.Raise? ==>
        && d.trace == [Send(chat, message)] + GenerateCalls(FallbackModels, message)
        && exists e | LastRaised(b, message, e) ::
             d.result.error == Exception(ResponsePrefix + AnyModelPrefix + StrOpt(e))
  {
    var attempt := m => TextAttempt(b, message, m);
    var w := FirstSuccess(FallbackModels, attempt);
    if w.Found? {
      assert FirstText(b, message, w.index);
    } else {
      assert FallbackModels[..Tried(FallbackModels, w)] == FallbackModels;
      LastErrorSpec(FallbackModels, attempt);
      assert LastRaised(b, message, w.lastError);
    }
  }
}

=== FILE: python.dfy ===
/**
 The Python built-ins the chat core leans on: optional values, the exceptions
 it raises or forwards, truthiness of optional strings, `os.getenv`, and the
 whitespace and case rules of `str.split`, `str.strip` and `str.lower`.
 */
module Python {

  /** `Optional[T]`: a value or `None`. */
  datatype Option<+T> = None | Some(value: T) {
    function GetOr(default: T): T {
      match this
      case Some(v) => v
      case None => default
    }
  }

  /** The exceptions of the core, each with the text `str(e)` yields.
      `SdkError` is anything the backend library raised on its own;
      `ValidationError` is pydantic's, carrying the location (the path of
      field names) of each field that failed, in declaration order. */
  datatype Exc =
    | ValueError(message: string)
    | NotImplementedError(message: string)
    | Exception(message: string)
    | AttributeError(message: string)
    | SdkError(message: string)
    | ValidationError(locations: seq<seq<string>>)

  /** A call that either returns a value or raises. */
  datatype Result<+T> = Ok(value: T) | Raise(error: Exc)

  /** `str(e)`; the text pydantic renders for a validation error is not modelled. */
  function Str(e: Exc): string
    requires !e.ValidationError?
  {
    e.message
  }

  /** `str(x)` of an optional error text: `None` prints as "None". */
  function StrOpt(e: Option<string>): string {
    match e
    case None => "None"
    case Some(m) => m
  }

  /** Truthiness of an `Optional[str]`: neither `None` nor "". */
  predicate Truthy(s: Option<string>) {
    s.Some? && s.value != ""
  }

  /** Python's `a or b` on two optional strings. */
  function Or(a: Option<string>, b: Option<string>): Option<string> {
    if Truthy(a) then a else b
  }

  /** The process environment, as `os.getenv` sees it. */
  type Env = map<string, string>

  function Getenv(env: Env, name: string): Option<string> {
    if name in env then Some(env[name]) else None
  }

  const AttributeOnNone := "'NoneType' object has no attribute 'api_key'"

  /** `str.isspace` on one code point: the characters `str.split()` and
      `str.strip()` treat as whitespace when called without arguments. */
  predicate IsSpace(c: char) {
    || ('\t' <= c <= '\r')
    || ('\U{1C}' <= c <= ' ')
    || c == '\U{85}' || c == '\U{A0}' || c == '\U{1680}'
    || ('\U{2000}' <= c <= '\U{200A}')
    || c == '\U{2028}' || c == '\U{2029}' || c == '\U{202F}'
    || c == '\U{205F}' || c == '\U{3000}'
  }

  /** Every character of `s` is whitespace (true of ""). */
  predicate Blank(s: string) {
    forall i | 0 <= i < |s| :: IsSpace(s[i])
  }

  function TrimStart(s: string): (r: string)
    ensures |r| > 0 ==> !IsSpace(r[0])
  {
    if |s| > 0 && IsSpace(s[0]) then TrimStart(s[1..]) else s
  }

  function TrimEnd(s: string): string {
    if |s| > 0 && IsSpace(s[|s| - 1]) then TrimEnd(s[..|s| - 1]) else s
  }

  /** `str.strip()` with no argument. */
  function Strip(s: string): string {
    TrimEnd(TrimStart(s))
  }

  lemma {:induction false} TrimStartEmptyIffBlank(s: string)
    ensures TrimStart(s) == [] <==> Blank(s)
    decreases |s|
  {
    if |s| > 0 && IsSpace(s[0]) {
      TrimStartEmptyIffBlank(s[1..]);
      assert Blank(s) <==> Blank(s[1..]) by {
        if Blank(s[1..]) {
          forall i | 0 <= i < |s| ensures IsSpace(s[i]) {
            if i > 0 { assert s[i] == s[1..][i - 1]; }
          }
        }
      }
    }
  }

  lemma {:induction false} TrimEndKeepsHead(s: string)
    requires |s| > 0 && !IsSpace(s[0])
    ensures |TrimEnd(s)| > 0
    decreases |s|
  {
    if IsSpace(s[|s| - 1]) {
      TrimEndKeepsHead(s[..|s| - 1]);
    }
  }

  /** `not s.strip()` holds exactly for the blank strings. */
  lemma StripEmptyIffBlank(s: string)
    ensures Strip(s) == [] <==> Blank(s)
  {
    TrimStartEmptyIffBlank(s);
    var t := TrimStart(s);
    if t != [] {
      TrimEndKeepsHead(t);
    }
  }

  /** `str.lower()` on one character, for the ASCII letters. */
  function LowerChar(c: char): char {
    if 'A' <= c <= 'Z' then (c as int + 32) as char else c
  }

  /** `str.lower()`, restricted to the ASCII capitals (see README). */
  function Lower(s: string): (r: string)
    ensures |r| == |s|
    ensures forall i | 0 <= i < |s| :: r[i] == LowerChar(s[i])
  {
    seq(|s|, i requires 0 <= i < |s| => LowerChar(s[i]))
  }
}

=== FILE: sdk.dfy ===
/**
 The Gemini client library, seen from the chat core as an oracle. Every call
 the core makes to it is one of the `Call` values below; what the call does
 (raise, or return a response) is read off a `Backend` value. A backend fixes
 one answer per request, so it stands for a service that answers the same
 request the same way throughout a session. The core's
 operations return the trace of calls they made, in order.
 */
module Sdk {
  import opened Python

  /** The `generation_config` dictionary a chat model is built with. */
  datatype GenerationConfig = GenerationConfig(
    temperature: real,
    topP: real,
    topK: int,
    maxOutputTokens: int)

  datatype SafetySetting = SafetySetting(category: string, threshold: string)

  /** A chat handle returned by `start_chat(history=[])`: the model name and
      settings it was built with, and every message passed to its
      `send_message` so far (empty when it is created). */
  datatype Handle = Handle(
    model: string,
    generation: GenerationConfig,
    safety: seq<SafetySetting>,
    sent: seq<string>)

  /** A response object: its Python truth value and its `.text`. */
  datatype Response = Response(truthy: bool, text: string)

  /** What one request did: raised (with `str(e)`) or returned a response. */
  datatype Outcome = Raised(error: string) | Returned(response: Response)

  /** What `list_models()` did. */
  datatype Listing = ListingRaised(error: string) | Listed(models: seq<string>)

  /** The library's behaviour:
      - `configure(key)`: the error `genai.configure(api_key=key)` raises, if any;
      - `listModels`: the outcome of `genai.list_models()`;
      - `generate(model, prompt)`: `GenerativeModel(model).generate_content(prompt)`;
      - `startChat(model, config, safety)`: the error building the model or
        calling `start_chat` raises, if any;
      - `send(handle, message)`: `handle.send_message(message)`. */
  datatype Backend = Backend(
    configure: string -> Option<string>,
    listModels: Listing,
    generate: (string, string) -> Outcome,
    startChat: (string, GenerationConfig, seq<SafetySetting>) -> Option<string>,
    send: (Handle, string) -> Outcome)

  /** One call into the library, as recorded in a trace. */
  datatype Call =
    | Configure(key: string)
    | ListModels
    | Generate(model: string, prompt: string)
    | StartChat(model: string, generation: GenerationConfig, safety: seq<SafetySetting>)
    | Send(handle: Handle, message: string)

  /** `response and response.text`: a reply with non-empty text. */
  predicate HasText(o: Outcome) {
    o.Returned? && o.response.truthy && o.response.text != ""
  }

  /** One `generate_content(prompt)` call per model, in order. */
  function GenerateCalls(models: seq<string>, prompt: string): (calls: seq<Call>)
    ensures |calls| == |models|
    ensures forall i | 0 <= i < |models| :: calls[i] == Generate(models[i], prompt)
  {
    seq(|models|, i requires 0 <= i < |models| => Generate(models[i], prompt))
  }

  /** One chat construction per model, in order. */
  function StartChatCalls(models: seq<string>, generation: GenerationConfig, safety: seq<SafetySetting>): (calls: seq<Call>)
    ensures |calls| == |models|
    ensures forall i | 0 <= i < |models| :: calls[i] == StartChat(models[i], generation, safety)
  {
    seq(|models|, i requires 0 <= i < |models| => StartChat(models[i], generation, safety))
  }
}

=== FILE: usage.dfy ===
/**
 The two usage helpers of the Gemini helper module: `count_tokens`, a word
 count by `str.split()`, and `estimate_cost`, a linear price formula (over the
 reals rather than floats).
 */
module Usage {
  import opened Python

  // ---------------------------------------------------------------- str.split()

  /** Length of the run of non-whitespace characters `s` starts with. */
  function WordLen(s: string): (n: nat)
    ensures n <= |s|
    ensures forall k | 0 <= k < n :: !IsSpace(s[k])
    ensures n < |s| ==> IsSpace(s[n])
  {
    if |s| == 0 || IsSpace(s[0]) then 0 else 1 + WordLen(s[1..])
  }

  /** `s.split()` with no separator: skip whitespace, take a maximal run of
      non-whitespace as one word, repeat. */
  function Split(s: string): (words: seq<string>)
    ensures forall i | 0 <= i < |words| :: |words[i]| > 0 && !HasSpace(words[i])
    decreases |s|
  {
    if |s| == 0 then []
    else if IsSpace(s[0]) then Split(s[1..])
    else
      var n := WordLen(s);
      [s[..n]] + Split(s[n..])
  }

  predicate HasSpace(w: string) {
    exists k | 0 <= k < |w| :: IsSpace(w[k])
  }

  /** The number of places in `s` where a non-whitespace run begins, scanning
      left to right; `afterSpace` says whether what came before `s` was
      whitespace (or nothing). */
  function Runs(s: string, afterSpace: bool): nat
    decreases |s|
  {
    if |s| == 0 then 0
    else (if afterSpace && !IsSpace(s[0]) then 1 else 0) + Runs(s[1..], IsSpace(s[0]))
  }

  /** `count_tokens`: `len(text.split())`. */
  function CountTokens(text: string): (n: nat)
    ensures n == Runs(text, true)
    ensures n == 0 <==> Blank(text)
    ensures 2 * n <= |text| + 1
  {
    SplitCountsRuns(text);
    RunsZeroIffBlank(text, true);
    RunsBound(text, true);
    |Split(text)|
  }

  lemma {:induction false} RunsInsideWord(s: string, k: nat)
    requires k <= WordLen(s)
    ensures Runs(s[k..], false) == Runs(s[WordLen(s)..], false)
    decreases WordLen(s) - k
  {
    if k < WordLen(s) {
      RunsInsideWord(s, k + 1);
      assert s[k..][1..] == s[k + 1..];
    }
  }

  lemma RunsAfterSpace(s: string, afterSpace: bool)
    requires |s| == 0 || IsSpace(s[0])
    ensures Runs(s, afterSpace) == Runs(s, true)
  {
  }

  /** The words `Split` returns are exactly the runs the scan counts. */
  lemma {:induction false} SplitCountsRuns(s: string)
    ensures |Split(s)| == Runs(s, true)
    decreases |s|
  {
    if |s| == 0 {
    } else if IsSpace(s[0]) {
      SplitCountsRuns(s[1..]);
    } else {
      var n := WordLen(s);
      SplitCountsRuns(s[n..]);
      RunsInsideWord(s, 1);
      RunsAfterSpace(s[n..], false);
    }
  }

  lemma {:induction false} RunsZeroIffBlank(s: string, afterSpace: bool)
    ensures afterSpace ==> (Runs(s, afterSpace) == 0 <==> Blank(s))
    ensures Blank(s) ==> Runs(s, afterSpace) == 0
    decreases |s|
  {
    if |s| > 0 {
      RunsZeroIffBlank(s[1..], IsSpace(s[0]));
      assert Blank(s) <==> IsSpace(s[0]) && Blank(s[1..]) by {
        if IsSpace(s[0]) && Blank(s[1..]) {
          forall i | 0 <= i < |s| ensures IsSpace(s[i]) {
            if i > 0 { assert s[i] == s[1..][i - 1]; }
          }
        }
      }
    }
  }

  lemma {:induction false} RunsBound(s: string, afterSpace: bool)
    ensures 2 * Runs(s, afterSpace) <= |s| + (if afterSpace then 1 else 0)
    decreases |s|
  {
    if |s| > 0 {
      RunsBound(s[1..], IsSpace(s[0]));
    }
  }

  /** Whether the scan stands after whitespace once it has read `a`. */
  function AfterSpaceAtEnd(a: string, afterSpace: bool): bool {
    if |a| == 0 then afterSpace else IsSpace(a[|a| - 1])
  }

  lemma {:induction false} RunsAppend(a: string, b: string, afterSpace: bool)
    ensures Runs(a + b, afterSpace) == Runs(a, afterSpace) + Runs(b, AfterSpaceAtEnd(a, afterSpace))
    decreases |a|
  {
    if |a| == 0 {
      assert a + b == b;
    } else {
      assert (a + b)[0] == a[0];
      assert (a + b)[1..] == a[1..] + b;
      RunsAppend(a[1..], b, IsSpace(a[0]));
      if |a| > 1 {
        assert a[1..][|a[1..]| - 1] == a[|a| - 1];
      }
    }
  }

  /** Joining two texts with a space adds their token counts. */
  lemma CountTokensJoin(a: string, b: string)
    ensures CountTokens(a + " " + b) == CountTokens(a) + CountTokens(b)
  {
    RunsAppend(a + " ", b, true);
    RunsAppend(a, " ", true);
    assert (a + " ")[|a + " "| - 1] == ' ';
  }

  /** Appending to a text whose first run already ends leaves that run alone. */
  lemma {:induction false} WordLenAppend(a: string, t: string)
    requires WordLen(a) < |a| || |t| == 0 || IsSpace(t[0])
    ensures WordLen(a + t) == WordLen(a)
    decreases |a|
  {
    if |a| == 0 {
      assert a + t == t;
    } else {
      assert (a + t)[0] == a[0];
      if !IsSpace(a[0]) {
        assert (a + t)[1..] == a[1..] + t;
        WordLenAppend(a[1..], t);
      }
    }
  }

  /** Any whitespace character separates words: splitting at it splits the
      text into the words before it and the words after it. */
  lemma {:induction false} SplitAtSpace(a: string, c: char, b: string)
    requires IsSpace(c)
    ensures Split(a + [c] + b) == Split(a) + Split(b)
    decreases |a|
  {
    var s := a + [c] + b;
    if |a| == 0 {
      assert s[0] == c && s[1..] == b;
    } else if IsSpace(a[0]) {
      assert s[0] == a[0] && s[1..] == a[1..] + [c] + b;
      SplitAtSpace(a[1..], c, b);
      assert Split(a) == Split(a[1..]);
    } else {
      SplitAfterWord(a, c, b);
    }
  }

  lemma {:induction false} SplitAfterWord(a: string, c: char, b: string)
    requires IsSpace(c) && |a| > 0 && !IsSpace(a[0])
    ensures Split(a + [c] + b) == Split(a) + Split(b)
    decreases |a|, 0
  {
    var s := a + [c] + b;
    var n := WordLen(a);
    assert s == a + ([c] + b);
    WordLenAppend(a, [c] + b);
    assert s[0] == a[0];
    assert s[..n] == a[..n];
    assert s[n..] == a[n..] + [c] + b;
    assert Split(s) == [a[..n]] + Split(a[n..] + [c] + b);
    SplitAtSpace(a[n..], c, b);
    assert Split(a) == [a[..n]] + Split(a[n..]);
  }

  /** A non-empty text without whitespace is one word. */
  lemma SplitWord(w: string)
    requires |w| > 0 && forall k | 0 <= k < |w| :: !IsSpace(w[k])
    ensures Split(w) == [w]
  {
    assert WordLen(w) == |w|;
    assert w[..|w|] == w && w[|w|..] == [];
  }

  /** Concatenating the words gives back the text with its whitespace removed. */
  function Concat(words: seq<string>): string {
    if |words| == 0 then [] else words[0] + Concat(words[1..])
  }

  function NonSpace(s: string): string
    decreases |s|
  {
    if |s| == 0 then [] else (if IsSpace(s[0]) then [] else [s[0]]) + NonSpace(s[1..])
  }

  lemma {:induction false} NonSpaceAppend(a: string, b: string)
    ensures NonSpace(a + b) == NonSpace(a) + NonSpace(b)
    decreases |a|
  {
    if |a| == 0 {
      assert a + b == b;
    } else {
      assert (a + b)[0] == a[0];
      assert (a + b)[1..] == a[1..] + b;
      NonSpaceAppend(a[1..], b);
    }
  }

  lemma {:induction false} NonSpaceOfWord(w: string)
    requires forall k | 0 <= k < |w| :: !IsSpace(w[k])
    ensures NonSpace(w) == w
    decreases |w|
  {
    if |w| > 0 {
      NonSpaceOfWord(w[1..]);
    }
  }

  /** `str.split()` loses only whitespace: no character is dropped, added or reordered. */
  lemma {:induction false} SplitKeepsText(s: string)
    ensures Concat(Split(s)) == NonSpace(s)
    decreases |s|
  {
    if |s| == 0 {
    } else if IsSpace(s[0]) {
      SplitKeepsText(s[1..]);
    } else {
      var n := WordLen(s);
      var words := Split(s);
      SplitKeepsText(s[n..]);
      assert words[0] == s[..n] && words[1..] == Split(s[n..]);
      assert s == s[..n] + s[n..];
      NonSpaceAppend(s[..n], s[n..]);
      NonSpaceOfWord(s[..n]);
    }
  }

  // ---------------------------------------------------------------- estimate_cost

  /** Dollars per 1000 tokens. */
  const InputPricePer1K: real := 0.00025
  const OutputPricePer1K: real := 0.0005

  /** `estimate_cost`, in exact arithmetic. */
  function EstimateCost(inputTokens: int, outputTokens: int): (cost: real)
    ensures cost == inputTokens as real * 0.00000025 + outputTokens as real * 0.0000005
  {
    (inputTokens as real / 1000.0) * InputPricePer1K + (outputTokens as real / 1000.0) * OutputPricePer1K
  }

  /** Nothing in, nothing out, nothing to pay. */
  lemma CostOfNothing()
    ensures EstimateCost(0, 0) == 0.0
  {
  }

  /** The cost of two calls is the cost of their summed usage. */
  lemma CostAdditive(i1: int, o1: int, i2: int, o2: int)
    ensures EstimateCost(i1 + i2, o1 + o2) == EstimateCost(i1, o1) + EstimateCost(i2, o2)
  {
  }

  /** More tokens on either side never cost less. */
  lemma CostMonotone(i1: int, o1: int, i2: int, o2: int)
    requires i1 <= i2 && o1 <= o2
    ensures EstimateCost(i1, o1) <= EstimateCost(i2, o2)
  {
  }
}
